=== FILE: README.md ===
# ghost-payment-service in Dafny

A model of the deterministic layer of ghost-payment-service. The service is one
payment interface with two adapters: Authorize.Net and Stripe. The model covers:

- the Authorize.Net adapter's guard-clause validation of billing addresses and cards;
- the order in which `createCard` runs its checks before any vendor call;
- the cents-to-dollars amount string sent with a charge;
- the flattening of the charge-error envelope and of charge results;
- the `paymentProfiles` "single or array" normalisation;
- the customer-lookup outcomes;
- the declarative Joi rules for addresses and cards (`schemata.js`);
- the Stripe adapter's error-code allow-list, its tokenise-then-attach card
  creation and the request bodies it builds;
- the processor dispatch of the entry-point factory;
- the base class whose operations reject unless an adapter overrides them;
- the test helper's second copy of the Authorize.Net validation.

Vendor clients are not modelled; their replies are parameters. Each operation
takes the vendor's `(err, value)` replies as arguments. It returns a `Run`: the settled outcome
plus the list of client calls it issued, in order. An operation whose promise
can stay pending for ever returns a `Trace` instead, whose outcome is either
`Settled(result)` or `Pending`. A JavaScript rejection is one of three
`Failure` kinds:

- `Error(message)`: an `Error` object.
- `Reason(value)`: a bare rejection value, such as a string or the vendor's
  `err`.
- `TypeError`: a property read on `null` or `undefined`.

Modules:

- `Js` (js.dfy): JavaScript values (`Json`), truthiness, property reads, conversion to text and lodash `_.head`.
- `Promises` (promises.dfy): failures, results, vendor callbacks and first-settle-wins.
- `Digits` (digits.dfy): decimal rendering and reading of natural numbers.
- `AuthNetTypes` (auth_net_types.dfy): the `auth-net-types` records.
- `Vendor` (vendor.dfy): the client calls, `Run`, `Trace` and promise chaining.
- `Schemata` (schemata.dfy): the Joi field rules, with the Luhn check.
- `AuthorizeNet` (authorize_net_service.dfy): the Authorize.Net adapter.
- `AuthorizeNetSetup` (authorize_net_setup.dfy): the test helper's copies, proved equal to the adapter.
- `Stripe` (stripe_service.dfy): the Stripe adapter.
- `AbstractService` (abstract_service.dfy): the base class and which operations each adapter overrides.
- `PaymentServiceFactory` (factory.dfy): processor dispatch, and the inherited operations reached through a built service.
- `Agreement` (agreement.dfy): how the Joi rules relate to the guards the adapter actually runs.

Behaviours of the source that a reader of the method names might not expect:

- Non-US addresses are not rejected (lib/authorizeNet/authorizeNetService.js:220-228).
  The validators ignore the caller's country and always set 'us'. The Joi
  `country` rule `.allow('us')` only whitelists that value. See
  `AuthorizeNet.CountryIgnored`.
- `getCustomer` rejects when the customer id is falsy (`!data.customerId`,
  lib/authorizeNet/authorizeNetService.js:192), yet still issues the lookup.
- `createCharge` never reports a declined charge: it stays pending (see
  "## Findings").

## Model

| member | source | states |
|---|---|---|
| Js.ToText | lib/authorizeNet/authorizeNetService.js:140 | `'Id: ' + data.id` prints a string as itself, a non-negative integer as digits without leading zeros whose value is that integer, and a negative one as '-' followed by the same digits of its magnitude (JavaScript does so below 10^21; see "## Left out") |
| Js.Head | lib/authorizeNet/authorizeNetService.js:124 | `_.head`: the first element of an array or string; undefined for an empty one and for null, undefined, booleans and numbers |
| Promises.FirstSettled | lib/authorizeNet/authorizeNetService.js:192-195 | of several `reject`/`resolve` calls in one executor, the outcome is one of them: the first |
| Promises.LaterSettlementsIgnored | lib/authorizeNet/authorizeNetService.js:192-195 | settling again after the first settlement never changes the outcome |
| Promises.Settle | lib/stripe/stripeService.js:63-66 | a node callback rejects exactly when `err` is truthy, with `err` itself as the reason, and otherwise resolves with the value |
| Vendor.AndThen | lib/stripe/stripeService.js:37-49 | a `.then` chain: a rejection of the first step skips the second; otherwise the calls of both steps in order and the second step's outcome |
| Vendor.Forward | lib/stripe/stripeService.js:62-67 | a one-call wrapper issues exactly that call and settles once: it rejects with the vendor's `err` iff it is truthy, else resolves with the vendor value |
| Digits.Render | lib/authorizeNet/authorizeNetService.js:118 | the whole-dollar part is a non-empty digit string with no leading zero |
| Digits.ValueOfRender | lib/authorizeNet/authorizeNetService.js:118 | reading the rendered dollars back gives the number rendered |
| Digits.ValueOfPad2 | lib/authorizeNet/authorizeNetService.js:118 | the two-decimal part is two digits whose value is the cents below a dollar |
| AuthorizeNet.ValidateBillingAddress | lib/authorizeNet/authorizeNetService.js:213-228 | accepts iff all six fields are non-empty; the first missing field in the order firstName, lastName, address, city, state, zip alone decides the message; on success the six fields are copied unchanged and country is 'us' |
| AuthorizeNet.CountryIgnored | lib/authorizeNet/authorizeNetService.js:220-228 | the caller's country never changes the validation outcome |
| AuthorizeNet.ValidateCard | lib/authorizeNet/authorizeNetService.js:235-244 | accepts iff number, exp_year, exp_month and cvc are all non-empty; the first missing one in that order decides the message; on success the card keeps number and cvc, and the expiration date is year, '-', month |
| AuthorizeNet.ExpirationRoundTrip | lib/authorizeNet/authorizeNetService.js:242 | the expiration date splits back into the year and month it was built from, when the year has no '-' |
| AuthorizeNet.GetCard | lib/authorizeNet/authorizeNetService.js:163-173 | one payment-profile lookup; rejects with the vendor error, else resolves with the reply's `paymentProfile` |
| AuthorizeNet.DeleteCard | lib/authorizeNet/authorizeNetService.js:38-48 | one profile deletion for the customer and card ids, settled by its callback |
| AuthorizeNet.CreateCard | lib/authorizeNet/authorizeNetService.js:72-101 | a falsy customer id fails first with 'Missing customer Id.'; then an address error beats a card error; no vendor call on any of these failures; otherwise one profile creation with a 'business' profile of the validated address and card, and only after it succeeds a lookup of the new profile id, whose outcome is the result |
| AuthorizeNet.AmountString | lib/authorizeNet/authorizeNetService.js:118 | the amount string is an optional '-', present exactly for a negative amount, then whole dollars as digits without leading zeros, a point and exactly two decimal digits; with `AmountRoundTrip` this fixes the one string `toFixed(2)` gives |
| AuthorizeNet.AmountRoundTrip | lib/authorizeNet/authorizeNetService.js:118 | reading the amount string back as dollars and cents gives exactly the cents the caller passed, for every integer |
| AuthorizeNet.AmountExamples | lib/authorizeNet/authorizeNetService.js:118 | 10000 cents is "100.00", 5 is "0.05", -10000 is "-100.00" |
| AuthorizeNet.BuildChargeError | lib/authorizeNet/authorizeNetService.js:204-207 | a non-array or empty `errors` gives 'Unable to complete transaction.'; for a non-empty array the read throws exactly when the first entry, its `error` list or that list's first element is null or undefined; every message produced is truthy |
| AuthorizeNet.ChargeErrorOfEnvelope | lib/authorizeNet/authorizeNetService.js:205-206 | for any envelope whose first entry holds an `error` list whose first element is an object, the message is that element's `errorText` when truthy, else the generic message, whatever further entries, errors and fields there are |
| AuthorizeNet.ChargeErrorOfSingleEnvelope | lib/authorizeNet/authorizeNetService.js:205-206 | a one-error envelope yields its text when truthy, else the generic message |
| AuthorizeNet.ChargeErrorReadsFirstOnly | lib/authorizeNet/authorizeNetService.js:205-206 | errors after the first never influence the message |
| AuthorizeNet.Flatten | lib/authorizeNet/authorizeNetService.js:124 | the flattened result has the same keys as the vendor's `_original`, each holding the first element of its array |
| AuthorizeNet.ChargeTarget | lib/authorizeNet/authorizeNetService.js:120 | the payment profile charged is `source` when truthy, else `cardId` |
| AuthorizeNet.ChargeTargetChoice | lib/authorizeNet/authorizeNetService.js:120 | a truthy `source` makes `cardId` irrelevant; without one, a falsy `source` of any kind charges `cardId` |
| AuthorizeNet.CreateCharge | lib/authorizeNet/authorizeNetService.js:115-127 | as written: one charge call with the two-decimal amount, the customer id and the chosen profile; the promise stays pending iff `_original` is falsy or carries `errors` (the instance has no `_buildChargeError`, so the callback throws); otherwise it resolves with the flattened result; it never rejects |
| AuthorizeNet.CreateChargeAsIntended | lib/authorizeNet/authorizeNetService.js:115-127 | with the static `_buildChargeError` called: the same call; rejects iff the result carries `errors`, with the built error message (the resolve that follows is ignored); else resolves with the flattened result |
| AuthorizeNet.DeclinedChargesNeverSettle | lib/authorizeNet/authorizeNetService.js:123 | the written and the intended versions issue the same call and agree on every accepted charge; every charge the intended version rejects, the written one leaves pending |
| AuthorizeNet.DeclinedChargeExample | lib/authorizeNet/authorizeNetService.js:123 | a result whose `_original.errors` is the envelope of 'This transaction has been declined.' is rejected with that text by the intended version and left pending by the written one |
| AuthorizeNet.GetCustomer | lib/authorizeNet/authorizeNetService.js:190-198 | the profile lookup is always issued; a falsy id rejects with 'Missing customer Id.' whatever the vendor answers; otherwise a vendor error is passed on, and the customer resolves iff the reply has a truthy `profile`, else 'Unable to find customer.' |
| AuthorizeNet.AsList | lib/authorizeNet/authorizeNetService.js:182 | an array of profiles is kept as it is; any other value, absent included, becomes a one-element list |
| AuthorizeNet.AsListIdempotent | lib/authorizeNet/authorizeNetService.js:182 | normalising an already normalised list changes nothing |
| AuthorizeNet.GetCards | lib/authorizeNet/authorizeNetService.js:180-183 | succeeds iff the customer lookup does and then always yields an array; lookup failures pass through unchanged |
| AuthorizeNet.CreateCustomer | lib/authorizeNet/authorizeNetService.js:134-155 | creates a profile from the merchant id (any value), the description 'Id: ' followed by the id converted to text, and the email; a creation error ends it; otherwise the customer is looked up by the profile id the vendor assigned, with that lookup's outcome |
| AuthorizeNet.CustomerDescriptionNamesId | lib/authorizeNet/authorizeNetService.js:138-141 | for a non-negative integer id, as the tests pass, the description is 'Id: ' followed by digits without leading zeros that read back as the id; this is JavaScript's behaviour for ids below 10^21 only (see "## Left out") |
| Schemata.CheckAddressField | lib/authorizeNet/schemata.js:16-22 | each address rule accepts exactly a non-empty string, and rejects with the field's own message |
| Schemata.ExpYearPatternMeaning | lib/authorizeNet/schemata.js:34 | the year pattern accepts exactly four-digit strings whose value is between 1000 and 2999 |
| Schemata.ExpMonthPatternMeaning | lib/authorizeNet/schemata.js:35 | the month pattern accepts exactly one- or two-digit strings whose value is between 1 and 12 |
| Schemata.ExpMonthExamples | lib/authorizeNet/schemata.js:35 | "1", "09" and "12" are accepted; "0", "00" and "13" are rejected |
| Schemata.LuhnCheck | lib/authorizeNet/schemata.js:33 | the right-to-left doubling loop accepts exactly the digit strings whose Luhn sum is a positive multiple of ten |
| Schemata.ZerosAreRejected | lib/authorizeNet/schemata.js:33 | a number made of zeros only has Luhn sum zero and fails the rule |
| Schemata.LuhnSumUpdate | lib/authorizeNet/schemata.js:33 | changing one digit changes the Luhn sum by exactly the change in that digit's weight |
| Schemata.LuhnCatchesSingleWrongDigit | lib/authorizeNet/schemata.js:33 | a valid card number with any single digit mistyped fails the check |
| Schemata.CheckCardField | lib/authorizeNet/schemata.js:33-36 | number passes iff it is a non-empty Luhn-valid digit string; exp_year passes iff absent or a year 1000 to 2999; exp_month passes iff present and a month 1 to 12; cvc passes iff present with 3 or 4 characters; failures carry the field's message |
| AuthorizeNetSetup.Guard | test/helpers/authorizeNetSetup.js:115-120 | passes iff every field is non-empty; otherwise the first missing field's message |
| AuthorizeNetSetup.ValidateBillingAddress | test/helpers/authorizeNetSetup.js:111-132 | failures carry one of the six billing messages; a validated address has country 'us' |
| AuthorizeNetSetup.ValidateCard | test/helpers/authorizeNetSetup.js:134-148 | failures carry one of the four card messages |
| AuthorizeNetSetup.BillingValidationAgrees | test/helpers/authorizeNetSetup.js:111-132 | the helper's address validation equals the adapter's on every input |
| AuthorizeNetSetup.CardValidationAgrees | test/helpers/authorizeNetSetup.js:134-148 | the helper's card validation equals the adapter's on every input |
| AuthorizeNetSetup.SetupCard | test/helpers/authorizeNetSetup.js:44-79 | 'Missing customer Id.' first with no call; at most one call; a stored card is the 'business' profile sent, with a 'us' address and the vendor's profile id |
| AuthorizeNetSetup.SetupCardAgreesWithCreateCard | test/helpers/authorizeNetSetup.js:49-53 | the helper fails exactly where the adapter's `createCard` fails before or at profile creation, with the same calls; where the helper resolves, the adapter goes on to look up that profile id |
| AuthorizeNetSetup.GetCustomer | test/helpers/authorizeNetSetup.js:101-109 | the lookup is always issued, and a customer is resolved only for a truthy id with no vendor error |
| AuthorizeNetSetup.GetCustomerAgrees | test/helpers/authorizeNetSetup.js:101-109 | the helper's customer lookup equals the adapter's on every input |
| Stripe.IndexOf | lib/stripe/stripeService.js:23 | `indexOf` finds the first position holding exactly the value, and -1 iff there is none |
| Stripe.IsValidErrorCode | lib/stripe/stripeService.js:15-24 | true exactly for a string among the eleven fixed codes |
| Stripe.ErrorCodesAreElevenDistinct | lib/stripe/stripeService.js:15 | the allow-list holds eleven distinct codes |
| Stripe.CreateCard | lib/stripe/stripeService.js:36-50 | token creation from the card comes first; a token error ends the operation with that error and no second call; a missing token ends it with a TypeError; the source is attached with the token's id only after a token arrives, and that call alone settles the result |
| Stripe.Attach | lib/stripe/stripeService.js:44-49 | a missing token throws before any call; otherwise one source creation for the customer with the token's id, settled by its callback |
| Stripe.CreateCardIsTokenThenAttach | lib/stripe/stripeService.js:36-50 | card creation equals the promise chain of the token call, settled by its callback, and then the attachment of the token it produced |
| Stripe.PlanUpdateBody | lib/stripe/stripeService.js:257-258 | the body always holds `name`, holds `metadata` iff metadata and its description are truthy, and nothing else |
| Stripe.PlanUpdateBodyIgnoresOtherFields | lib/stripe/stripeService.js:257-258 | changing any request field other than `name` and `metadata`, `planId` included, leaves the plan body unchanged |
| Stripe.UpdatePlan | lib/stripe/stripeService.js:255-264 | one plan update of `planId` with that body |
| Stripe.CustomerUpdateBody | lib/stripe/stripeService.js:238-239 | the payload is the request without `customerId`, every other field unchanged |
| Stripe.CustomerUpdateBodyRestores | lib/stripe/stripeService.js:238-240 | putting the customer id back into the payload restores the request |
| Stripe.UpdateCustomer | lib/stripe/stripeService.js:236-245 | one customer update targeting `customerId` with that payload |
| Stripe.SetDefaultCard | lib/stripe/stripeService.js:223-230 | one customer update whose body is exactly `{default_source: cardId}` |
| Stripe.CreateSubscription | lib/stripe/stripeService.js:108-115 | one customer update whose body is exactly `{plan: planId}` |
| Stripe.CustomerUpdatesSendOneField | lib/stripe/stripeService.js:223-230 | `setDefaultCard` sends only `default_source`, and `createSubscription` (line 110) only `plan`; changing a request field other than `cardId` leaves the first body unchanged, and one other than `planId` the second |
| Stripe.FetchPlans | lib/stripe/stripeService.js:150-157 | resolves with the `data` list inside the vendor's reply, not the reply |
| Stripe.FetchPlansUnwraps | lib/stripe/stripeService.js:150-157 | fetching plans is the plain list call chained with taking `data`; a reply carrying a list resolves with exactly that list |
| Stripe.CreateCharge | lib/stripe/stripeService.js:61-68 | the request is forwarded unchanged to one charge creation |
| Stripe.CreateCustomer | lib/stripe/stripeService.js:73-80 | the request is forwarded unchanged to one customer creation |
| Stripe.CreatePlan | lib/stripe/stripeService.js:94-101 | the request is forwarded unchanged to one plan creation |
| Stripe.DeleteCard | lib/stripe/stripeService.js:123-130 | one card deletion for the customer and card ids |
| Stripe.DeleteCustomer | lib/stripe/stripeService.js:137-144 | one customer deletion for the customer id |
| Stripe.GetCard | lib/stripe/stripeService.js:165-172 | one card retrieval for the customer and card ids |
| Stripe.GetCards | lib/stripe/stripeService.js:179-186 | one card listing for the customer id |
| Stripe.GetCustomer | lib/stripe/stripeService.js:193-200 | one customer retrieval for the customer id |
| Stripe.GetPlan | lib/stripe/stripeService.js:207-215 | one plan retrieval for the plan id |
| Stripe.FailuresAreNeverMessages | lib/stripe/stripeService.js:36-264 | no Stripe operation, card creation and plan listing included, fails with an error of the adapter's own making: every failure is the vendor's error or a TypeError |
| AbstractService.Overrides | lib/authorizeNet/authorizeNetService.js:38-198 | the interface operations each adapter defines: seven for Authorize.Net (deleteCard through getCustomer), all ten for Stripe |
| AbstractService.BaseOutcome | lib/AbstractGhostPaymentService.js:13-88 | every base operation rejects with an Error 'Abstract method - must override' |
| AbstractService.AuthorizeNetInherits | lib/AbstractGhostPaymentService.js:13-88 | the Authorize.Net adapter leaves exactly isValidErrorCode, deleteCustomer and updateCustomer to the base class |
| AbstractService.StripeInheritsNothing | lib/AbstractGhostPaymentService.js:13-88 | the Stripe adapter overrides all ten operations |
| PaymentServiceFactory.ProcessorIs | lib/GhostPaymentServiceFactory.js:35-36 | only a string or an array can loosely equal a processor name, and a string does so exactly when it is the name |
| PaymentServiceFactory.ProcessorIsExclusive | lib/GhostPaymentServiceFactory.js:35-36 | no `processor` value loosely equals two different processor names |
| PaymentServiceFactory.ProcessorIsText | lib/GhostPaymentServiceFactory.js:35-36 | a `processor` value that matches a name converts to exactly that name as text, as loose equality with a string prescribes |
| PaymentServiceFactory.Defaulted | lib/authorizeNet/authorizeNetServiceFactory.js:11-13 | a missing sub-configuration becomes an empty object; any other value, null included, is passed on |
| PaymentServiceFactory.CreateService | lib/GhostPaymentServiceFactory.js:34-38 | null options throw; 'authorizeNet' builds an Authorize.Net service and 'stripe' a Stripe service, unless its sub-configuration is null; any other processor, absent included, fails with 'GhostPaymentService: Unknown payment processor.'; the three outcomes exclude each other; the Authorize.Net credentials `apiLoginId`, `transactionKey` and `sandboxMode`, and the Stripe `secretKey`, are read from the chosen sub-configuration, `{}` when it is missing |
| PaymentServiceFactory.OtherOptionsIgnored | lib/GhostPaymentServiceFactory.js:35-37 | changing any option other than `processor` and the chosen processor's sub-configuration, the other processor's included, builds the same service; with an unknown processor every such change still fails with the unknown-processor error |
| PaymentServiceFactory.CreateServiceExamples | lib/GhostPaymentServiceFactory.js:34-38 | 'stripe' without configuration builds a Stripe service; `['authorizeNet']` also selects Authorize.Net; 'paypal' is unknown; a null Stripe configuration throws |
| PaymentServiceFactory.IsValidErrorCodeOn | lib/AbstractGhostPaymentService.js:13-15 | a Stripe service answers with a plain Boolean, an Authorize.Net service with the abstract rejection |
| PaymentServiceFactory.DeleteCustomerOn | lib/AbstractGhostPaymentService.js:31-33 | an Authorize.Net service rejects with the abstract error and makes no call; a Stripe service deletes the customer |
| PaymentServiceFactory.UpdateCustomerOn | lib/AbstractGhostPaymentService.js:86-88 | an Authorize.Net service rejects with the abstract error and makes no call; a Stripe service updates the customer |
| PaymentServiceFactory.AbstractErrorOnlyFromAuthorizeNet | lib/AbstractGhostPaymentService.js:31-33 | the abstract error only ever comes from an Authorize.Net service; Stripe recognises 'card_declined' |
| Agreement.FirstRejection | lib/authorizeNet/schemata.js:15-23 | rule checking in declaration order passes iff every rule passes |
| Agreement.FirstRejectionAt | lib/authorizeNet/schemata.js:15-23 | the message reported is that of the first failing rule |
| Agreement.AddressSchema | lib/authorizeNet/schemata.js:15-23 | the address rules pass iff all seven fields, country included, are non-empty strings |
| Agreement.CardSchema | lib/authorizeNet/schemata.js:32-37 | the card rules pass iff each of the four field rules passes |
| Agreement.AddressRulesMatchGuards | lib/authorizeNet/schemata.js:16-22 | for an address with a country, the rules and the adapter's guards accept the same addresses and reject with the same message |
| Agreement.AddressRulesRequireCountry | lib/authorizeNet/schemata.js:20 | an address without a country fails the rules with 'Only US cards are supported at this time.' but passes the guards |
| Agreement.CardRulesImplyGuards | lib/authorizeNet/schemata.js:33-36 | a card that passes the rules and has a year passes the guards |
| Agreement.AcceptedExpirationSplits | lib/authorizeNet/schemata.js:34-35 | for a card that passes the rules, the expiration date built by the guards splits back into the caller's year and month |
| Agreement.MissingYearPassesRulesOnly | lib/authorizeNet/schemata.js:34 | a card without a year passes the rules, because the year rule is optional, but fails the guards with 'Missing card expiration year.' |
| Agreement.GuardsAcceptBadNumber | lib/authorizeNet/schemata.js:33 | the guards accept a number that fails the Luhn rule |

## Left out

- The vendor clients (`auth-net-cim`, `authorize-net`, `stripe`) and the network are not modelled. Their replies are parameters, and each call is a recorded `Call` value.
- The `auth-net-types` constructors are taken as plain records. The unwrapping of `billTo.bin` after profile creation (lib/authorizeNet/authorizeNetService.js:93-95 and test/helpers/authorizeNetSetup.js:70-72, the latter shaping `AuthorizeNetSetup.SetupCard`) depends on what they build and is not modelled.
- A TypeError thrown inside a vendor callback never settles the returned promise. Each affected operation requires a reply that does not throw:
  - `Answered` for `response.paymentProfile`, `response.profile` (with a truthy customer id) and `plans.data`;
  - `ChargeReplyReadable` for the intended `createCharge`: `result._original` and the path to the error text;
  - a present `customerPaymentProfileIdList` for `createCustomer`.
- AuthorizeNet.CreateCharge: a truthy `_original` that is not an object (a string, array, number or Boolean) and carries no `errors` is excluded by `ChargeResultShaped`; lodash's `mapValues` over such values is not modelled.
- AuthorizeNet.GetCustomer: with a falsy id and a reply that carries neither an error nor a value, the callback's read of `response.profile` throws after the promise was rejected; the model gives the rejection and does not model that uncaught throw.
- Js.ToText: fractional numbers, NaN and objects with their own `toString` are not modelled; ids are integers, strings or other plain JSON values. Integers of magnitude 10^21 and above, which JavaScript prints in exponent notation ("1e+21"), are printed as plain digits: the model does not carry floating-point formatting.
- AuthorizeNet.CreateCharge: a rejection of `chargeCustomer` itself is never handled by the source (there is no `catch`), so the operation stays pending. The model takes only the vendor's resolved result.
- AuthorizeNet.AmountString: the source divides as a floating-point number and calls `toFixed(2)`. The model renders integer cents exactly. This agrees with `toFixed(2)` as long as the rounding error of the quotient stays far below half a cent, which holds for any realistic amount. `amount` is taken to be an integer.
- Field values in validated inputs are strings or absent. Truthiness of other types (numbers, such as the helper's numeric `exp_month`) and `null` sub-objects are not modelled.
- The `data = {}` defaults are modelled only as an absent sub-object (`NoBilling`, `NoCard`). The Stripe adapter takes its request as a raw JSON value. A null or undefined request rejects with a TypeError in the operations that read a field of it (createCard, updatePlan, updateCustomer, setDefaultCard, createSubscription, deleteCard, deleteCustomer, getCard, getCards, getCustomer, getPlan); createCharge, createCustomer, createPlan and fetchPlans hand it to the client unread, and their outcome is the vendor's reply.
- The Authorize.Net operations take typed records (`CardRequest`, `ChargeRequest`, `CustomerData`, a customer id), so a `null` request, for which the source rejects with a TypeError (the `= {}` default covers only `undefined`), cannot be expressed.
- Schemata.CheckCardField and Js.Head: lengths and first characters count code points, whereas JavaScript counts UTF-16 code units, so a cvc with characters outside the Basic Multilingual Plane is measured differently.
- Schemata.LuhnCheck: Joi's `creditCard()` is taken to be the Luhn check of ISO/IEC 7812-1 Annex B over decimal digits, with a sum that must be positive. Joi reads each character as `charAt(i) * mul`, so any whitespace character (space, tab, newline and the other characters `Number` trims) counts as the digit 0 and a number containing whitespace can pass Joi; the model accepts digit strings only. Joi's own code and its abort-early machinery are not part of this model.
- Loose equality in the factory is exact for JSON values compared with the names 'authorizeNet' and 'stripe' only (in general `0 == "0"` and `[] == ""` hold, which `ProcessorIs` does not express). Objects with their own `toString` or `valueOf` are not modelled.
- Stripe.UpdateCustomer: sends the payload without `customerId`. The source deletes the field from the caller's own object, a mutation visible to the caller, and that is not modelled.
- The test helper's `setupCustomer` and its random data generators (`generateAddress`, `generateCard`) use a random source and are not modelled.
- The per-processor factories are modelled only as the `{}` default inside `PaymentServiceFactory.CreateService`.
- The source has no refund operation and no card-number truncation. The integration tests and test/helpers/stripeSetup.js only drive live sandboxes.

## Findings

| source | as written | input that shows it | evidently intended | confidence | as-written member | corrected member |
|---|---|---|---|---|---|---|
| lib/authorizeNet/authorizeNetService.js:123 | `this._buildChargeError(...)` calls a static method through the instance, where it is undefined, so the `.then` callback throws a TypeError and the returned promise never settles | `chargeCustomer` resolving `{_original: {errors: [{error: [{errorText: 'This transaction has been declined.'}]}]}}` | `AuthorizeNetService._buildChargeError(...)`: reject with 'This transaction has been declined.' | high; not executed | AuthorizeNet.CreateCharge (with AuthorizeNet.DeclinedChargeExample) | AuthorizeNet.CreateChargeAsIntended (with AuthorizeNet.DeclinedChargesNeverSettle) |

=== FILE: abstract_service.dfy ===
/** The common interface (lib/AbstractGhostPaymentService.js): ten operations
    whose base versions all reject with one fixed error; each adapter
    overrides some of them. */
module AbstractService {
  import opened Js
  import opened Promises

  datatype Method =
    | IsValidErrorCode | DeleteCard | DeleteCustomer | GetCard | GetCards
    | CreateCard | CreateCharge | CreateCustomer | GetCustomer | UpdateCustomer

  datatype Adapter = AuthorizeNetAdapter | StripeAdapter

  const AbstractMessage: string := "Abstract method - must override"

  const AllMethods: set<Method> := {
    IsValidErrorCode, DeleteCard, DeleteCustomer, GetCard, GetCards,
    CreateCard, CreateCharge, CreateCustomer, GetCustomer, UpdateCustomer
  }

  lemma AllMethodsComplete(m: Method)
    ensures m in AllMethods
  {
  }

  /** The base version of any operation: a rejection with the abstract-method error. */
  function BaseOutcome(m: Method): (r: Result<Json>)
    ensures r.Err? && r.failure.Error? && r.failure.message == AbstractMessage
  {
    Err(Error(AbstractMessage))
  }

  /** The interface operations each adapter class defines itself. The
      Stripe adapter defines further operations outside the interface. */
  function Overrides(a: Adapter): (defined: set<Method>)
    ensures defined <= AllMethods
    ensures a == AuthorizeNetAdapter ==> |defined| == 7
  {
    match a
    case AuthorizeNetAdapter => {DeleteCard, GetCard, GetCards, CreateCard, CreateCharge, CreateCustomer, GetCustomer}
    case StripeAdapter => AllMethods
  }

  /** Whether a call of m on the adapter reaches the base version. */
  predicate Inherits(a: Adapter, m: Method) {
    m !in Overrides(a)
  }

  /** The Authorize.Net adapter leaves exactly three operations abstract. */
  lemma AuthorizeNetInherits(m: Method)
    ensures Inherits(AuthorizeNetAdapter, m) <==> m in {IsValidErrorCode, DeleteCustomer, UpdateCustomer}
  {
  }

  /** The Stripe adapter overrides every operation of the interface. */
  lemma StripeInheritsNothing(m: Method)
    ensures !Inherits(StripeAdapter, m)
  {
    AllMethodsComplete(m);
  }
}

=== FILE: agreement.dfy ===
/** How the declarative rules of lib/authorizeNet/schemata.js relate to the
    guard clauses the adapter actually runs. The rules are not applied by the
    adapter; read as a validator that stops at the first failing field in
    declaration order, they agree with the guards on addresses that carry a
    country and are stricter than the guards on cards, except that a card with
    no expiration year passes the rules and fails the guards. */
module Agreement {
  import opened Js
  import opened Promises
  import opened Digits
  import opened Schemata
  import AuthorizeNet

  /** The address rules in declaration order; country sits between city and state. */
  function AddressSchema(data: AuthorizeNet.BillingInput): (r: Option<string>)
    ensures r.None? <==>
      Filled(data.firstName) && Filled(data.lastName) && Filled(data.address) && Filled(data.city) &&
      Filled(data.country) && Filled(data.state) && Filled(data.zip)
  {
    var checks := [
      CheckAddressField(FirstName, data.firstName),
      CheckAddressField(LastName, data.lastName),
      CheckAddressField(Address, data.address),
      CheckAddressField(City, data.city),
      CheckAddressField(Country, data.country),
      CheckAddressField(State, data.state),
      CheckAddressField(Zip, data.zip)];
    assert checks[0].None? && checks[1].None? && checks[2].None? && checks[3].None? <==>
      Filled(data.firstName) && Filled(data.lastName) && Filled(data.address) && Filled(data.city);
    assert checks[4].None? && checks[5].None? && checks[6].None? <==>
      Filled(data.country) && Filled(data.state) && Filled(data.zip);
    FirstRejection(checks)
  }

  /** The card rules in declaration order. */
  function CardSchema(data: AuthorizeNet.CardInput): (r: Option<string>)
    ensures r.None? <==>
      CheckCardField(Number, data.number).None? && CheckCardField(ExpYear, data.expYear).None? &&
      CheckCardField(ExpMonth, data.expMonth).None? && CheckCardField(Cvc, data.cvc).None?
  {
    var checks := [
      CheckCardField(Number, data.number),
      CheckCardField(ExpYear, data.expYear),
      CheckCardField(ExpMonth, data.expMonth),
      CheckCardField(Cvc, data.cvc)];
    assert checks[0] == CheckCardField(Number, data.number) && checks[1] == CheckCardField(ExpYear, data.expYear);
    assert checks[2] == CheckCardField(ExpMonth, data.expMonth) && checks[3] == CheckCardField(Cvc, data.cvc);
    FirstRejection(checks)
  }

  /** The first rejection among the checks, if any. */
  function FirstRejection(checks: seq<Option<string>>): (r: Option<string>)
    ensures r.None? <==> forall i :: 0 <= i < |checks| ==> checks[i].None?
    decreases |checks|
  {
    if |checks| == 0 then None
    else if checks[0].Some? then checks[0]
    else
      var r := FirstRejection(checks[1..]);
      assert (forall i :: 0 <= i < |checks[1..]| ==> checks[1..][i].None?) ==>
        forall i :: 0 <= i < |checks| ==> checks[i].None? by {
        if forall i :: 0 <= i < |checks[1..]| ==> checks[1..][i].None? {
          forall i | 0 <= i < |checks|
            ensures checks[i].None?
          {
            if i > 0 {
              assert checks[i] == checks[1..][i - 1];
            }
          }
        }
      }
      r
  }

  /** The rejection reported is that of the first failing check. */
  lemma {:induction false} FirstRejectionAt(checks: seq<Option<string>>, i: nat)
    requires i < |checks| && checks[i].Some?
    requires forall j :: 0 <= j < i ==> checks[j].None?
    ensures FirstRejection(checks) == checks[i]
    decreases i
  {
    if i > 0 {
      assert checks[1..][i - 1] == checks[i];
      assert forall j :: 0 <= j < i - 1 ==> checks[1..][j] == checks[j + 1];
      FirstRejectionAt(checks[1..], i - 1);
    }
  }

  /** For an address that names a country, the rules and the guards reject
      the same addresses, with the same message. */
  lemma AddressRulesMatchGuards(data: AuthorizeNet.BillingInput)
    requires Filled(data.country)
    ensures AddressSchema(data).None? <==> AuthorizeNet.ValidateBillingAddress(data).Ok?
    ensures AddressSchema(data).Some? ==> AuthorizeNet.ValidateBillingAddress(data) == Err(Error(AddressSchema(data).value))
  {
    var checks := [
      CheckAddressField(FirstName, data.firstName),
      CheckAddressField(LastName, data.lastName),
      CheckAddressField(Address, data.address),
      CheckAddressField(City, data.city),
      CheckAddressField(Country, data.country),
      CheckAddressField(State, data.state),
      CheckAddressField(Zip, data.zip)];
    var fields := AuthorizeNet.BillingFields(data);
    assert fields[0] == data.firstName && fields[1] == data.lastName && fields[2] == data.address;
    assert fields[3] == data.city && fields[4] == data.state && fields[5] == data.zip;
    if !Filled(data.firstName) {
      FirstRejectionAt(checks, 0);
      assert AuthorizeNet.FirstMissing(fields, 0);
    } else if !Filled(data.lastName) {
      FirstRejectionAt(checks, 1);
      assert AuthorizeNet.FirstMissing(fields, 1);
    } else if !Filled(data.address) {
      FirstRejectionAt(checks, 2);
      assert AuthorizeNet.FirstMissing(fields, 2);
    } else if !Filled(data.city) {
      FirstRejectionAt(checks, 3);
      assert AuthorizeNet.FirstMissing(fields, 3);
    } else if !Filled(data.state) {
      FirstRejectionAt(checks, 5);
      assert AuthorizeNet.FirstMissing(fields, 4);
    } else if !Filled(data.zip) {
      FirstRejectionAt(checks, 6);
      assert AuthorizeNet.FirstMissing(fields, 5);
    }
  }

  /** The rules reject an address without a country, which the guards accept. */
  lemma AddressRulesRequireCountry()
    ensures var data := AuthorizeNet.BillingInput(Some("A"), Some("B"), Some("C"), Some("D"), Some("E"), Some("F"), None);
      && AddressSchema(data) == Some("Only US cards are supported at this time.")
      && AuthorizeNet.ValidateBillingAddress(data).Ok?
  {
    var data := AuthorizeNet.BillingInput(Some("A"), Some("B"), Some("C"), Some("D"), Some("E"), Some("F"), None);
    var checks := [
      CheckAddressField(FirstName, data.firstName),
      CheckAddressField(LastName, data.lastName),
      CheckAddressField(Address, data.address),
      CheckAddressField(City, data.city),
      CheckAddressField(Country, data.country),
      CheckAddressField(State, data.state),
      CheckAddressField(Zip, data.zip)];
    assert !Filled(data.country) && checks[4] == CheckAddressField(Country, None);
    FirstRejectionAt(checks, 4);
  }

  /** A card the rules accept, and that has a year, passes the guards. */
  lemma CardRulesImplyGuards(data: AuthorizeNet.CardInput)
    requires CardSchema(data).None? && data.expYear.Some?
    ensures AuthorizeNet.ValidateCard(data).Ok?
  {
  }

  /** On a card the rules accept, the expiration date the guards build splits
      back into the year and month the caller gave. */
  lemma AcceptedExpirationSplits(data: AuthorizeNet.CardInput)
    requires CardSchema(data).None? && data.expYear.Some?
    ensures AuthorizeNet.SplitExpiration(AuthorizeNet.ValidateCard(data).value.expirationDate)
         == (data.expYear.value, data.expMonth.value)
  {
    var year := data.expYear.value;
    assert '-' !in year by {
      assert forall i :: 0 <= i < |year| ==> IsDigit(year[i]);
    }
    AuthorizeNet.ExpirationRoundTrip(year, data.expMonth.value);
  }

  /** The rules let a card without an expiration year through (the year rule
      is optional); the guards stop it. */
  lemma MissingYearPassesRulesOnly()
    ensures var data := AuthorizeNet.CardInput(Some("42"), None, Some("12"), Some("123"));
      && CardSchema(data).None?
      && AuthorizeNet.ValidateCard(data) == Err(Error("Missing card expiration year."))
  {
    var data := AuthorizeNet.CardInput(Some("42"), None, Some("12"), Some("123"));
    assert LuhnSum("42"[1..]) == 2 by {
      assert "42"[1..] == "2";
      assert "2"[1..] == "";
    }
    assert LuhnValid("42");
    ExpMonthPatternMeaning("12");
    assert AuthorizeNet.FirstMissing(AuthorizeNet.CardFields(data), 1);
  }

  /** The guards accept a card number that fails the card-number rule. */
  lemma GuardsAcceptBadNumber()
    ensures var data := AuthorizeNet.CardInput(Some("41"), Some("2030"), Some("12"), Some("123"));
      && CardSchema(data) == Some("Invalid credit card number.")
      && AuthorizeNet.ValidateCard(data).Ok?
  {
    assert LuhnSum("41"[1..]) == 1 by {
      assert "41"[1..] == "1";
      assert "1"[1..] == "";
    }
    assert !LuhnValid("41");
  }
}

=== FILE: auth_net_types.dfy ===
/** The Authorize.Net value objects the adapter builds (the `auth-net-types`
    constructors), taken as plain record builders. */
module AuthNetTypes {
  import opened Js

  /** `Types.BillingAddress`: the seven billing fields sent with a card. */
  datatype BillingAddress = BillingAddress(
    firstName: string,
    lastName: string,
    address: string,
    city: string,
    state: string,
    zip: string,
    country: string)

  /** `Types.CreditCard`: number, "YYYY-MM"-style expiration date and security code. */
  datatype CreditCard = CreditCard(cardNumber: string, expirationDate: string, cardCode: string)

  /** The payment profile submitted when a card is stored for a customer. */
  datatype PaymentProfile = PaymentProfile(customerType: string, billTo: BillingAddress, creditCard: CreditCard)

  /** A payment profile after the vendor has assigned it an id. */
  datatype StoredProfile = StoredProfile(profile: PaymentProfile, customerPaymentProfileId: Json)

  /** `Types.CustomerBasic`: the customer profile submitted on creation. */
  datatype CustomerBasic = CustomerBasic(merchantCustomerId: Json, description: string, email: Json)
}

=== FILE: authorize_net_service.dfy ===
/** The Authorize.Net adapter (lib/authorizeNet/authorizeNetService.js): local
    validation of billing address and card before any vendor call, the
    cents-to-dollars amount conversion, the flattening of the charge-error
    envelope and of charge results, and the normalisation of the customer's
    payment profiles into a list. The CIM and AIM clients appear only as the
    calls recorded in each Run and the callbacks passed in. */
module AuthorizeNet {
  import opened Js
  import opened Promises
  import opened Digits
  import opened AuthNetTypes
  import opened Vendor

  const MissingCustomerId := "Missing customer Id."
  const CustomerNotFound := "Unable to find customer."
  const ChargeFailed := "Unable to complete transaction."

  /** The billing address a caller supplies; every field may be absent. */
  datatype BillingInput = BillingInput(
    firstName: Option<string>,
    lastName: Option<string>,
    address: Option<string>,
    city: Option<string>,
    state: Option<string>,
    zip: Option<string>,
    country: Option<string>)

  /** The card a caller supplies; every field may be absent. */
  datatype CardInput = CardInput(
    number: Option<string>,
    expYear: Option<string>,
    expMonth: Option<string>,
    cvc: Option<string>)

  /** A missing address or card is validated as `{}`, the parameter default. */
  const NoBilling := BillingInput(None, None, None, None, None, None, None)
  const NoCard := CardInput(None, None, None, None)

  datatype CardRequest = CardRequest(customerId: Json, billingAddress: Option<BillingInput>, card: Option<CardInput>)

  /** `amount` is in cents; `source`, when truthy, wins over `cardId`. */
  datatype ChargeRequest = ChargeRequest(amount: int, customerId: Json, source: Json, cardId: Json)

  /** `id` is any JavaScript value; the tests pass integers. */
  datatype CustomerData = CustomerData(id: Json, email: Json)

  // ---------------------------------------------------------------------------
  // Guard-clause validation

  /** Field i is the first of the fields that is missing or empty. */
  predicate FirstMissing(fields: seq<Option<string>>, i: int) {
    && 0 <= i < |fields|
    && !Filled(fields[i])
    && forall j :: 0 <= j < i ==> Filled(fields[j])
  }

  /** The guarded billing fields, in the order they are checked, and their messages. */
  function BillingFields(data: BillingInput): seq<Option<string>> {
    [data.firstName, data.lastName, data.address, data.city, data.state, data.zip]
  }

  const BillingMessages: seq<string> := [
    "Missing billing address first name.",
    "Missing billing address last name.",
    "Missing billing address.",
    "Missing billing address city.",
    "Missing billing address state.",
    "Missing billing address zip."
  ]

  /** `_validateBillingAddress`: the first missing field, in the order above,
      decides the error; otherwise the six fields are copied and the country
      is always 'us'. */
  function ValidateBillingAddress(data: BillingInput): (r: Result<BillingAddress>)
    ensures r.Ok? <==>
      Filled(data.firstName) && Filled(data.lastName) && Filled(data.address) &&
      Filled(data.city) && Filled(data.state) && Filled(data.zip)
    ensures forall i :: FirstMissing(BillingFields(data), i) ==> r == Err(Error(BillingMessages[i]))
    ensures r.Ok? ==> BillingFields(data) == [
      Some(r.value.firstName), Some(r.value.lastName), Some(r.value.address),
      Some(r.value.city), Some(r.value.state), Some(r.value.zip)]
    ensures r.Ok? ==> r.value.country == "us"
  {
    var fields := BillingFields(data);
    assert fields[0] == data.firstName && fields[1] == data.lastName && fields[2] == data.address;
    assert fields[3] == data.city && fields[4] == data.state && fields[5] == data.zip;
    if !Filled(data.firstName) then Err(Error(BillingMessages[0]))
    else if !Filled(data.lastName) then Err(Error(BillingMessages[1]))
    else if !Filled(data.address) then Err(Error(BillingMessages[2]))
    else if !Filled(data.city) then Err(Error(BillingMessages[3]))
    else if !Filled(data.state) then Err(Error(BillingMessages[4]))
    else if !Filled(data.zip) then Err(Error(BillingMessages[5]))
    else Ok(BillingAddress(
      data.firstName.value, data.lastName.value, data.address.value,
      data.city.value, data.state.value, data.zip.value, "us"))
  }

  /** The caller's country has no influence on address validation. */
  lemma CountryIgnored(data: BillingInput, country: Option<string>)
    ensures ValidateBillingAddress(data.(country := country)) == ValidateBillingAddress(data)
  {
  }

  /** The guarded card fields, in the order they are checked, and their messages. */
  function CardFields(data: CardInput): seq<Option<string>> {
    [data.number, data.expYear, data.expMonth, data.cvc]
  }

  const CardMessages: seq<string> := [
    "Missing card number.",
    "Missing card expiration year.",
    "Missing card expiration month.",
    "Missing card CVC."
  ]

  /** The year and month of an expiration date, split at its first '-'. */
  function SplitExpiration(date: string): (string, string)
    decreases |date|
  {
    if |date| == 0 then ("", "")
    else if date[0] == '-' then ("", date[1..])
    else
      var (year, month) := SplitExpiration(date[1..]);
      ([date[0]] + year, month)
  }

  /** `_validateCard`: the first missing field, in the order above, decides the
      error; otherwise the card carries the number, the code, and the year and
      month joined by '-'. */
  function ValidateCard(data: CardInput): (r: Result<CreditCard>)
    ensures r.Ok? <==> Filled(data.number) && Filled(data.expYear) && Filled(data.expMonth) && Filled(data.cvc)
    ensures forall i :: FirstMissing(CardFields(data), i) ==> r == Err(Error(CardMessages[i]))
    ensures r.Ok? ==> r.value.cardNumber == data.number.value && r.value.cardCode == data.cvc.value
    ensures r.Ok? ==> r.value.expirationDate == data.expYear.value + "-" + data.expMonth.value
  {
    var fields := CardFields(data);
    assert fields[0] == data.number && fields[1] == data.expYear && fields[2] == data.expMonth && fields[3] == data.cvc;
    if !Filled(data.number) then Err(Error(CardMessages[0]))
    else if !Filled(data.expYear) then Err(Error(CardMessages[1]))
    else if !Filled(data.expMonth) then Err(Error(CardMessages[2]))
    else if !Filled(data.cvc) then Err(Error(CardMessages[3]))
    else Ok(CreditCard(data.number.value, data.expYear.value + "-" + data.expMonth.value, data.cvc.value))
  }

  /** Splitting an expiration date gives back the year and month it was joined
      from, as long as the year has no '-' of its own. */
  lemma {:induction false} ExpirationRoundTrip(year: string, month: string)
    requires '-' !in year
    ensures SplitExpiration(year + "-" + month) == (year, month)
    decreases |year|
  {
    var date := year + "-" + month;
    if |year| == 0 {
      assert date == "-" + month;
      assert date[1..] == month;
    } else {
      assert date[0] == year[0];
      assert date[1..] == year[1..] + "-" + month;
      assert '-' !in year[1..] by {
        forall i | 0 <= i < |year[1..]|
          ensures year[1..][i] != '-'
        {
          assert year[1..][i] == year[i + 1];
        }
      }
      ExpirationRoundTrip(year[1..], month);
      assert [year[0]] + year[1..] == year;
    }
  }

  // ---------------------------------------------------------------------------
  // Cards

  function AddressOf(data: CardRequest): Result<BillingAddress> {
    ValidateBillingAddress(data.billingAddress.GetOr(NoBilling))
  }

  function CardOf(data: CardRequest): Result<CreditCard> {
    ValidateCard(data.card.GetOr(NoCard))
  }

  /** `getCard`: one profile lookup, resolving with its `paymentProfile`. */
  function GetCard(customerId: Json, cardId: Json, reply: Callback): (r: Run<Json>)
    requires Answered(reply)
    ensures r.calls == [GetCustomerPaymentProfile(customerId, cardId)]
    ensures r.result.Err? <==> reply.err.Truthy()
    ensures r.result.Err? ==> r.result.failure == Reason(reply.err)
    ensures r.result.Ok? ==> r.result.value == Get(reply.value, "paymentProfile")
  {
    var outcome := match Settle(reply)
      case Err(f) => Err(f)
      case Ok(response) => Ok(Get(response, "paymentProfile"));
    Run(outcome, [GetCustomerPaymentProfile(customerId, cardId)])
  }

  /** `deleteCard`: one profile deletion, settled by its callback. */
  function DeleteCard(customerId: Json, cardId: Json, reply: Callback): (r: Run<Json>)
    ensures Forwards(r, DeleteCustomerPaymentProfile(customerId, cardId), reply)
  {
    Forward(DeleteCustomerPaymentProfile(customerId, cardId), reply)
  }

  /** `createCard`: a missing customer id fails first, then the address is
      validated, then the card; only when all three pass is the payment profile
      created, and the stored card is then fetched with the new profile id. */
  function CreateCard(data: CardRequest, created: Callback, fetched: Callback): (r: Run<Json>)
    requires Answered(created) && Answered(fetched)
    ensures !data.customerId.Truthy() ==> r == Run(Err(Error(MissingCustomerId)), [])
    ensures data.customerId.Truthy() && AddressOf(data).Err? ==> r == Run(Err(AddressOf(data).failure), [])
    ensures data.customerId.Truthy() && AddressOf(data).Ok? && CardOf(data).Err? ==>
      r == Run(Err(CardOf(data).failure), [])
    ensures r.calls != [] <==> data.customerId.Truthy() && AddressOf(data).Ok? && CardOf(data).Ok?
    ensures r.calls != [] ==>
      r.calls[0] == CreateCustomerPaymentProfile(data.customerId,
        PaymentProfile("business", AddressOf(data).value, CardOf(data).value))
    ensures |r.calls| <= 2
    ensures |r.calls| == 1 ==> r.result == Err(Reason(created.err))
    ensures |r.calls| == 2 <==> r.calls != [] && !created.err.Truthy()
    ensures |r.calls| == 2 ==>
      GetCard(data.customerId, Get(created.value, "customerPaymentProfileId"), fetched) == Run(r.result, r.calls[1..])
  {
    if !data.customerId.Truthy() then Run(Err(Error(MissingCustomerId)), [])
    else
      var address := AddressOf(data);
      if address.Err? then Run(Err(address.failure), [])
      else
        var card := CardOf(data);
        if card.Err? then Run(Err(card.failure), [])
        else
          var create := CreateCustomerPaymentProfile(data.customerId, PaymentProfile("business", address.value, card.value));
          match Settle(created)
          case Err(f) => Run(Err(f), [create])
          case Ok(response) =>
            var fetch := GetCard(data.customerId, Get(response, "customerPaymentProfileId"), fetched);
            Run(fetch.result, [create] + fetch.calls)
  }

  // ---------------------------------------------------------------------------
  // Charges

  /** `(cents / 100).toFixed(2)`: the amount in dollars with exactly two
      decimals, a leading '-' exactly for a negative amount, and whole dollars
      without leading zeros. */
  function AmountString(cents: int): (r: string)
    ensures |r| >= 4 && r[|r| - 3] == '.'
    ensures AllDigits(r[|r| - 2..])
    ensures r[0] == '-' <==> cents < 0
    ensures var dollars := if cents < 0 then r[1..|r| - 3] else r[..|r| - 3];
      && |dollars| > 0 && AllDigits(dollars)
      && (|dollars| > 1 ==> dollars[0] != '0')
  {
    var magnitude := if cents < 0 then -cents else cents;
    var sign := if cents < 0 then "-" else "";
    var whole := Render(magnitude / 100);
    var r := sign + whole + "." + Pad2(magnitude % 100);
    assert r[|r| - 2..] == Pad2(magnitude % 100);
    assert r[|sign|..|r| - 3] == whole;
    assert r[0] == (if cents < 0 then '-' else whole[0]);
    r
  }

  /** Reads a two-decimal dollar amount back into cents. */
  function ParseAmount(s: string): Option<int> {
    if |s| < 4 || s[|s| - 3] != '.' then None
    else ParseDollars(s[..|s| - 3], s[|s| - 2..])
  }

  /** The signed whole dollars and the two decimals of an amount, in cents. */
  function ParseDollars(whole: string, fraction: string): Option<int> {
    var negative := |whole| > 0 && whole[0] == '-';
    var digits := if negative then whole[1..] else whole;
    if |digits| == 0 || !AllDigits(digits) || !AllDigits(fraction) then None
    else
      var magnitude := ValueOf(digits) * 100 + ValueOf(fraction);
      Some(if negative then -magnitude else magnitude)
  }

  lemma ParseJoined(whole: string, fraction: string)
    requires |whole| > 0 && |fraction| == 2
    ensures ParseAmount(whole + "." + fraction) == ParseDollars(whole, fraction)
  {
    var s := whole + "." + fraction;
    assert s[..|s| - 3] == whole;
    assert s[|s| - 2..] == fraction;
  }

  lemma ParseDollarsUnsigned(dollars: string, fraction: string)
    requires |dollars| > 0 && AllDigits(dollars) && AllDigits(fraction)
    ensures ParseDollars(dollars, fraction) == Some(ValueOf(dollars) * 100 + ValueOf(fraction))
  {
    assert IsDigit(dollars[0]);
  }

  lemma ParseDollarsNegative(dollars: string, fraction: string)
    requires |dollars| > 0 && AllDigits(dollars) && AllDigits(fraction)
    ensures ParseDollars("-" + dollars, fraction) == Some(-(ValueOf(dollars) * 100 + ValueOf(fraction)))
  {
    var whole := "-" + dollars;
    assert whole[0] == '-' && whole[1..] == dollars;
  }

  /** The amount sent to the vendor denotes exactly the cents the caller gave. */
  lemma AmountRoundTrip(cents: int)
    ensures ParseAmount(AmountString(cents)) == Some(cents)
  {
    var magnitude := if cents < 0 then -cents else cents;
    var dollars, fraction := Render(magnitude / 100), Pad2(magnitude % 100);
    ValueOfRender(magnitude / 100);
    ValueOfPad2(magnitude % 100);
    assert ValueOf(dollars) * 100 + ValueOf(fraction) == magnitude;
    if cents < 0 {
      AmountNegativeParts(cents);
      ParseJoined("-" + dollars, fraction);
      ParseDollarsNegative(dollars, fraction);
    } else {
      AmountUnsignedParts(cents);
      ParseJoined(dollars, fraction);
      ParseDollarsUnsigned(dollars, fraction);
    }
  }

  lemma AmountNegativeParts(cents: int)
    requires cents < 0
    ensures AmountString(cents) == "-" + Render(-cents / 100) + "." + Pad2(-cents % 100)
  {
  }

  lemma AmountUnsignedParts(cents: int)
    requires cents >= 0
    ensures AmountString(cents) == Render(cents / 100) + "." + Pad2(cents % 100)
  {
    assert "" + Render(cents / 100) == Render(cents / 100);
  }

  lemma AmountExamples()
    ensures AmountString(10000) == "100.00"
    ensures AmountString(5) == "0.05"
    ensures AmountString(-10000) == "-100.00"
  {
  }

  /** The vendor's charge-error envelope with one error carrying the given text. */
  function Envelope(text: Json): Json {
    Arr([Obj(map["error" := Arr([Obj(map["errorText" := text])])])])
  }

  /** `AuthorizeNetService._buildChargeError`: the first error's text when
      `errors` is a non-empty array and that text is truthy, otherwise the
      generic message. None when reading down to the text would throw (a null
      or undefined step). */
  function BuildChargeError(errors: Json): (r: Option<Json>)
    ensures !(errors.Arr? && |errors.items| > 0) ==> r == Some(Str(ChargeFailed))
    ensures errors.Arr? && |errors.items| > 0 ==>
      (r.None? <==>
        || errors.items[0].Nullish()
        || Get(errors.items[0], "error").Nullish()
        || First(Get(errors.items[0], "error")).Nullish())
    ensures r.Some? ==> r.value.Truthy()
  {
    if !errors.Arr? || |errors.items| == 0 then Some(Str(ChargeFailed))
    else
      var entry := errors.items[0];
      if entry.Nullish() then None
      else
        var list := Get(entry, "error");
        if list.Nullish() then None
        else
          var first := First(list);
          if first.Nullish() then None
          else
            var text := Get(first, "errorText");
            if text.Truthy() then Some(text) else Some(Str(ChargeFailed))
  }

  /** Any envelope whose first entry is an object holding an `error` array whose
      first element is an object yields that element's `errorText`, or the
      generic message when the text is falsy or absent; further entries, further
      errors and further fields are never read. */
  lemma ChargeErrorOfEnvelope(entry: map<string, Json>, inner: map<string, Json>, more: seq<Json>, rest: seq<Json>)
    requires "error" in entry && entry["error"] == Arr([Obj(inner)] + more)
    ensures var text := if "errorText" in inner then inner["errorText"] else Undefined;
      BuildChargeError(Arr([Obj(entry)] + rest)) == Some(if text.Truthy() then text else Str(ChargeFailed))
  {
    assert ([Obj(entry)] + rest)[0] == Obj(entry);
    assert ([Obj(inner)] + more)[0] == Obj(inner);
  }

  /** The envelope of a single error. */
  lemma ChargeErrorOfSingleEnvelope(text: Json)
    ensures BuildChargeError(Envelope(text)) == Some(if text.Truthy() then text else Str(ChargeFailed))
  {
    ChargeErrorOfEnvelope(map["error" := Arr([Obj(map["errorText" := text])])], map["errorText" := text], [], []);
  }

  /** Only the first error of the envelope is ever read. */
  lemma ChargeErrorReadsFirstOnly(entry: Json, rest: seq<Json>)
    ensures BuildChargeError(Arr([entry] + rest)) == BuildChargeError(Arr([entry]))
  {
    assert ([entry] + rest)[0] == entry;
  }

  /** The vendor resolved the charge with an `_original` object whose `errors`,
      when present, can be read down to the first error text. */
  predicate ChargeReplyReadable(reply: Json) {
    var original := Get(reply, "_original");
    && original.Obj?
    && (Get(original, "errors").Truthy() ==> BuildChargeError(Get(original, "errors")).Some?)
  }

  /** A charge result that would be resolved at all carries its fields in an
      object `_original`. */
  predicate ChargeResultShaped(reply: Json) {
    var original := Get(reply, "_original");
    original.Truthy() && !Get(original, "errors").Truthy() ==> original.Obj?
  }

  /** `_.mapValues(original, _.head)`: every field replaced by its first element. */
  function Flatten(original: map<string, Json>): (m: map<string, Json>)
    ensures m.Keys == original.Keys
    ensures forall k :: k in m ==> m[k] == Head(original[k])
  {
    map k | k in original :: Head(original[k])
  }

  /** `data.source || data.cardId`. */
  function ChargeTarget(data: ChargeRequest): (target: Json)
    ensures data.source.Truthy() ==> target == data.source
    ensures !data.source.Truthy() ==> target == data.cardId
  {
    if data.source.Truthy() then data.source else data.cardId
  }

  /** A truthy `source` makes `cardId` irrelevant; otherwise `source` is ignored. */
  lemma ChargeTargetChoice(data: ChargeRequest, other: Json)
    ensures data.source.Truthy() ==> ChargeTarget(data.(cardId := other)) == ChargeTarget(data)
    ensures !data.source.Truthy() && !other.Truthy() ==> ChargeTarget(data.(source := other)) == ChargeTarget(data)
    ensures ChargeTarget(data) == data.source || ChargeTarget(data) == data.cardId
  {
  }

  /** The charge call: the amount in dollars and the profile chosen from
      `source` or `cardId`. */
  function ChargeCall(data: ChargeRequest): Call {
    ChargeCustomer(AmountString(data.amount), data.customerId, ChargeTarget(data))
  }

  /** `createCharge` as written: the error branch calls the static
      `_buildChargeError` through the instance, where it is undefined, so the
      callback throws a TypeError whenever `_original` is falsy or carries
      `errors`, and the returned promise never settles. Otherwise it resolves
      with the result's fields flattened. It never rejects. */
  function CreateCharge(data: ChargeRequest, reply: Json): (r: Trace<Json>)
    requires ChargeResultShaped(reply)
    ensures r.calls == [ChargeCustomer(AmountString(data.amount), data.customerId, ChargeTarget(data))]
    ensures r.settlement.Pending? <==>
      !Get(reply, "_original").Truthy() || Get(Get(reply, "_original"), "errors").Truthy()
    ensures r.settlement.Settled? ==> r.settlement.result == Ok(Obj(Flatten(Get(reply, "_original").fields)))
  {
    var original := Get(reply, "_original");
    if !original.Truthy() || Get(original, "errors").Truthy() then Trace(Pending, [ChargeCall(data)])
    else Trace(Settled(Ok(Obj(Flatten(original.fields)))), [ChargeCall(data)])
  }

  /** `createCharge` as evidently intended, calling the static
      `AuthorizeNetService._buildChargeError`: a result carrying `errors`
      rejects with the flattened error (the resolve that follows is ignored),
      otherwise the result's fields are flattened. */
  function CreateChargeAsIntended(data: ChargeRequest, reply: Json): (r: Run<Json>)
    requires ChargeReplyReadable(reply)
    ensures r.calls == [ChargeCustomer(AmountString(data.amount), data.customerId, ChargeTarget(data))]
    ensures r.result.Err? <==> Get(Get(reply, "_original"), "errors").Truthy()
    ensures r.result.Err? ==>
      r.result.failure == Reason(BuildChargeError(Get(Get(reply, "_original"), "errors")).value)
    ensures r.result.Ok? ==> r.result == Ok(Obj(Flatten(Get(reply, "_original").fields)))
  {
    var original := Get(reply, "_original");
    var errors := Get(original, "errors");
    var flattened := Ok(Obj(Flatten(original.fields)));
    var attempts := if errors.Truthy() then [Err(Reason(BuildChargeError(errors).value)), flattened] else [flattened];
    Run(FirstSettled(attempts), [ChargeCall(data)])
  }

  /** The two versions issue the same call and agree on every successful
      charge; on every declined one the intended version reports the
      vendor's text and the written one never answers. */
  lemma DeclinedChargesNeverSettle(data: ChargeRequest, reply: Json)
    requires ChargeReplyReadable(reply)
    ensures ChargeResultShaped(reply)
    ensures CreateCharge(data, reply).calls == CreateChargeAsIntended(data, reply).calls
    ensures CreateChargeAsIntended(data, reply).result.Ok? ==>
      CreateCharge(data, reply).settlement == Settled(CreateChargeAsIntended(data, reply).result)
    ensures CreateChargeAsIntended(data, reply).result.Err? ==> CreateCharge(data, reply).settlement.Pending?
  {
  }

  /** A charge the vendor declines with a text: the intended version rejects
      with that text, the written one stays pending. */
  lemma DeclinedChargeExample(data: ChargeRequest)
    ensures var reply := Obj(map["_original" := Obj(map["errors" := Envelope(Str("This transaction has been declined."))])]);
      && ChargeReplyReadable(reply)
      && CreateChargeAsIntended(data, reply).result == Err(Reason(Str("This transaction has been declined.")))
      && CreateCharge(data, reply).settlement == Pending
  {
    var reply := Obj(map["_original" := Obj(map["errors" := Envelope(Str("This transaction has been declined."))])]);
    ChargeErrorOfSingleEnvelope(Str("This transaction has been declined."));
    assert Get(Get(reply, "_original"), "errors") == Envelope(Str("This transaction has been declined."));
  }

  // ---------------------------------------------------------------------------
  // Customers

  /** `getCustomer`: a falsy id rejects with a bare string, yet the profile
      lookup is still issued and its outcome ignored; otherwise a reply without
      `profile` rejects with 'Unable to find customer.'. With a truthy id the
      reply must be answered: the callback reads `response.profile`. */
  function GetCustomer(customerId: Json, reply: Callback): (r: Run<Json>)
    requires customerId.Truthy() ==> Answered(reply)
    ensures r.calls == [GetCustomerProfile(customerId)]
    ensures !customerId.Truthy() ==> r.result == Err(Reason(Str(MissingCustomerId)))
    ensures customerId.Truthy() && reply.err.Truthy() ==> r.result == Err(Reason(reply.err))
    ensures customerId.Truthy() && !reply.err.Truthy() ==>
      (r.result.Ok? <==> Get(reply.value, "profile").Truthy())
    ensures customerId.Truthy() && !reply.err.Truthy() && !Get(reply.value, "profile").Truthy() ==>
      r.result == Err(Reason(Str(CustomerNotFound)))
    ensures r.result.Ok? ==> r.result.value == Get(reply.value, "profile") && r.result.value.Truthy()
  {
    var lookup: Result<Json> :=
      if reply.err.Truthy() then Err(Reason(reply.err))
      else if Get(reply.value, "profile").Truthy() then Ok(Get(reply.value, "profile"))
      else Err(Reason(Str(CustomerNotFound)));
    var guard: seq<Result<Json>> := if customerId.Truthy() then [] else [Err(Reason(Str(MissingCustomerId)))];
    Run(FirstSettled(guard + [lookup]), [GetCustomerProfile(customerId)])
  }

  /** `paymentProfiles` as a list: an array as it is, anything else (absent
      included) as the only element. */
  function AsList(profiles: Json): (list: seq<Json>)
    ensures profiles.Arr? ==> list == profiles.items
    ensures !profiles.Arr? ==> list == [profiles]
  {
    if profiles.Arr? then profiles.items else [profiles]
  }

  /** Listing an already-listed value changes nothing. */
  lemma AsListIdempotent(profiles: Json)
    ensures AsList(Arr(AsList(profiles))) == AsList(profiles)
  {
  }

  /** `getCards`: the customer's payment profiles, always as a list; failures
      of the customer lookup pass through unchanged. */
  function GetCards(customerId: Json, reply: Callback): (r: Run<Json>)
    requires customerId.Truthy() ==> Answered(reply)
    ensures r.calls == [GetCustomerProfile(customerId)]
    ensures r.result.Err? ==> r.result == GetCustomer(customerId, reply).result
    ensures r.result.Ok? <==> GetCustomer(customerId, reply).result.Ok?
    ensures r.result.Ok? ==> r.result.value.Arr?
    ensures r.result.Ok? ==>
      var profiles := Get(Get(reply.value, "profile"), "paymentProfiles");
      && (profiles.Arr? ==> r.result.value == profiles)
      && (!profiles.Arr? ==> r.result.value.items == [profiles])
  {
    var customer := GetCustomer(customerId, reply);
    match customer.result
    case Err(f) => Run(Err(f), customer.calls)
    case Ok(profile) => Run(Ok(Arr(AsList(Get(profile, "paymentProfiles")))), customer.calls)
  }

  /** `createCustomer`: the customer profile is created from the merchant id and
      email, then fetched back by the id the vendor assigned. */
  function CreateCustomer(data: CustomerData, created: Callback, fetched: Callback): (r: Run<Json>)
    requires Answered(created)
    requires !created.err.Truthy() ==> !Get(created.value, "customerPaymentProfileIdList").Nullish()
    requires !created.err.Truthy() && Get(created.value, "customerProfileId").Truthy() ==> Answered(fetched)
    ensures 1 <= |r.calls| <= 2
    ensures r.calls[0] == CreateCustomerProfile(CustomerBasic(data.id, "Id: " + ToText(data.id), data.email))
    ensures created.err.Truthy() ==> r == Run(Err(Reason(created.err)), r.calls[..1])
    ensures !created.err.Truthy() ==>
      GetCustomer(Get(created.value, "customerProfileId"), fetched) == Run(r.result, r.calls[1..])
  {
    var customer := CustomerBasic(data.id, "Id: " + ToText(data.id), data.email);
    var create := CreateCustomerProfile(customer);
    match Settle(created)
    case Err(f) => Run(Err(f), [create])
    case Ok(response) =>
      var fetch := GetCustomer(Get(response, "customerProfileId"), fetched);
      Run(fetch.result, [create] + fetch.calls)
  }

  /** The description of a customer created with a non-negative integer id
      reads back as that id after its "Id: " prefix. */
  lemma CustomerDescriptionNamesId(n: nat, email: Json, created: Callback, fetched: Callback)
    requires Answered(created)
    requires !created.err.Truthy() ==> !Get(created.value, "customerPaymentProfileIdList").Nullish()
    requires !created.err.Truthy() && Get(created.value, "customerProfileId").Truthy() ==> Answered(fetched)
    ensures var d := CreateCustomer(CustomerData(Num(n), email), created, fetched).calls[0].customerProfile.description;
      && d[..4] == "Id: " && AllDigits(d[4..]) && ValueOf(d[4..]) == n
      && (|d| > 5 ==> d[4] != '0')
  {
    var d := CreateCustomer(CustomerData(Num(n), email), created, fetched).calls[0].customerProfile.description;
    assert d == "Id: " + ToText(Num(n));
    assert d[4..] == ToText(Num(n));
  }
}

=== FILE: authorize_net_setup.dfy ===
/** The test helper (test/helpers/authorizeNetSetup.js) that stores cards and
    reads customers straight through the CIM client. It carries its own copy
    of the adapter's validation and customer lookup; this module defines those
    copies independently and proves them equal to the adapter's. */
module AuthorizeNetSetup {
  import opened Js
  import opened Promises
  import opened AuthNetTypes
  import opened Vendor
  import AuthorizeNet

  /** The message of the first field that is missing or empty, if any. */
  function Guard(fields: seq<Option<string>>, messages: seq<string>): (r: Option<string>)
    requires |fields| == |messages|
    ensures r.None? <==> forall i :: 0 <= i < |fields| ==> Filled(fields[i])
    ensures forall i :: AuthorizeNet.FirstMissing(fields, i) ==> r == Some(messages[i])
    ensures r.Some? ==> r.value in messages
    decreases |fields|
  {
    if |fields| == 0 then None
    else if !Filled(fields[0]) then Some(messages[0])
    else
      var r := Guard(fields[1..], messages[1..]);
      assert forall i :: AuthorizeNet.FirstMissing(fields, i) ==> i > 0 && AuthorizeNet.FirstMissing(fields[1..], i - 1);
      assert r.Some? ==> r.value in messages by {
        if r.Some? {
          var k :| 0 <= k < |messages[1..]| && messages[1..][k] == r.value;
          assert messages[k + 1] == r.value;
        }
      }
      r
  }

  /** `_validateBillingAddress` of the helper. */
  function ValidateBillingAddress(data: AuthorizeNet.BillingInput): (r: Result<BillingAddress>)
    ensures r.Err? ==> r.failure.Error? && r.failure.message in AuthorizeNet.BillingMessages
    ensures r.Ok? ==> r.value.country == "us"
  {
    var fields := AuthorizeNet.BillingFields(data);
    match Guard(fields, AuthorizeNet.BillingMessages)
    case Some(m) => Err(Error(m))
    case None =>
      assert Filled(fields[0]) && Filled(fields[1]) && Filled(fields[2]);
      assert Filled(fields[3]) && Filled(fields[4]) && Filled(fields[5]);
      Ok(BillingAddress(
        data.firstName.value, data.lastName.value, data.address.value,
        data.city.value, data.state.value, data.zip.value, "us"))
  }

  /** `_validateCard` of the helper. */
  function ValidateCard(data: AuthorizeNet.CardInput): (r: Result<CreditCard>)
    ensures r.Err? ==> r.failure.Error? && r.failure.message in AuthorizeNet.CardMessages
  {
    var fields := AuthorizeNet.CardFields(data);
    match Guard(fields, AuthorizeNet.CardMessages)
    case Some(m) => Err(Error(m))
    case None =>
      assert Filled(fields[0]) && Filled(fields[1]) && Filled(fields[2]) && Filled(fields[3]);
      Ok(CreditCard(data.number.value, data.expYear.value + "-" + data.expMonth.value, data.cvc.value))
  }

  /** The helper validates a billing address exactly as the adapter does. */
  lemma BillingValidationAgrees(data: AuthorizeNet.BillingInput)
    ensures ValidateBillingAddress(data) == AuthorizeNet.ValidateBillingAddress(data)
  {
    var fields := AuthorizeNet.BillingFields(data);
    var g := Guard(fields, AuthorizeNet.BillingMessages);
    if g.Some? {
      var i :| AuthorizeNet.FirstMissing(fields, i) by {
        FirstMissingExists(fields);
      }
    }
  }

  /** The helper validates a card exactly as the adapter does. */
  lemma CardValidationAgrees(data: AuthorizeNet.CardInput)
    ensures ValidateCard(data) == AuthorizeNet.ValidateCard(data)
  {
    var fields := AuthorizeNet.CardFields(data);
    var g := Guard(fields, AuthorizeNet.CardMessages);
    if g.Some? {
      var i :| AuthorizeNet.FirstMissing(fields, i) by {
        FirstMissingExists(fields);
      }
    }
  }

  /** When some field is missing, one of them is the first. */
  lemma {:induction false} FirstMissingExists(fields: seq<Option<string>>)
    requires exists i :: 0 <= i < |fields| && !Filled(fields[i])
    ensures exists i :: AuthorizeNet.FirstMissing(fields, i)
    decreases |fields|
  {
    if !Filled(fields[0]) {
      assert AuthorizeNet.FirstMissing(fields, 0);
    } else {
      var k :| 0 <= k < |fields| && !Filled(fields[k]);
      assert !Filled(fields[1..][k - 1]);
      FirstMissingExists(fields[1..]);
      var i :| AuthorizeNet.FirstMissing(fields[1..], i);
      assert AuthorizeNet.FirstMissing(fields, i + 1);
    }
  }

  /** `setupCard`: the adapter's guards, then one profile creation; the stored
      profile is resolved as it was submitted, with the assigned id, and is not
      fetched back. */
  function SetupCard(data: AuthorizeNet.CardRequest, created: Callback): (r: Run<StoredProfile>)
    requires Answered(created)
    ensures !data.customerId.Truthy() ==> r == Run(Err(Error(AuthorizeNet.MissingCustomerId)), [])
    ensures |r.calls| <= 1
    ensures |r.calls| == 1 ==> (r.result.Err? <==> created.err.Truthy())
    ensures |r.calls| == 1 && r.result.Err? ==> r.result.failure == Reason(created.err)
    ensures r.result.Ok? ==>
      && |r.calls| == 1
      && r.calls[0] == CreateCustomerPaymentProfile(data.customerId, r.result.value.profile)
      && r.result.value.profile.customerType == "business"
      && r.result.value.profile.billTo.country == "us"
      && r.result.value.customerPaymentProfileId == Get(created.value, "customerPaymentProfileId")
  {
    if !data.customerId.Truthy() then Run(Err(Error(AuthorizeNet.MissingCustomerId)), [])
    else
      var address := ValidateBillingAddress(data.billingAddress.GetOr(AuthorizeNet.NoBilling));
      if address.Err? then Run(Err(address.failure), [])
      else
        var card := ValidateCard(data.card.GetOr(AuthorizeNet.NoCard));
        if card.Err? then Run(Err(card.failure), [])
        else
          var profile := PaymentProfile("business", address.value, card.value);
          var create := CreateCustomerPaymentProfile(data.customerId, profile);
          match Settle(created)
          case Err(f) => Run(Err(f), [create])
          case Ok(response) => Run(Ok(StoredProfile(profile, Get(response, "customerPaymentProfileId"))), [create])
  }

  /** The helper stores a card as the adapter's `createCard` does: the same
      failures before any call, the same creation call, and where the helper
      stops with the stored profile the adapter goes on to fetch it by its id. */
  lemma SetupCardAgreesWithCreateCard(data: AuthorizeNet.CardRequest, created: Callback, fetched: Callback)
    requires Answered(created) && Answered(fetched)
    ensures SetupCard(data, created).result.Err? ==>
      AuthorizeNet.CreateCard(data, created, fetched) == Run(Err(SetupCard(data, created).result.failure), SetupCard(data, created).calls)
    ensures SetupCard(data, created).result.Ok? ==>
      AuthorizeNet.CreateCard(data, created, fetched).calls ==
        SetupCard(data, created).calls + [GetCustomerPaymentProfile(data.customerId, SetupCard(data, created).result.value.customerPaymentProfileId)]
  {
    BillingValidationAgrees(data.billingAddress.GetOr(AuthorizeNet.NoBilling));
    CardValidationAgrees(data.card.GetOr(AuthorizeNet.NoCard));
  }

  /** `getCustomer` of the helper. */
  function GetCustomer(customerId: Json, reply: Callback): (r: Run<Json>)
    requires customerId.Truthy() ==> Answered(reply)
    ensures r.calls == [GetCustomerProfile(customerId)]
    ensures r.result.Ok? ==> customerId.Truthy() && !reply.err.Truthy() && r.result.value == Get(reply.value, "profile")
  {
    var outcome: Result<Json> :=
      if !customerId.Truthy() then Err(Reason(Str(AuthorizeNet.MissingCustomerId)))
      else if reply.err.Truthy() then Err(Reason(reply.err))
      else
        var profile := Get(reply.value, "profile");
        if profile.Truthy() then Ok(profile) else Err(Reason(Str(AuthorizeNet.CustomerNotFound)));
    Run(outcome, [GetCustomerProfile(customerId)])
  }

  /** The helper reads a customer exactly as the adapter does. */
  lemma GetCustomerAgrees(customerId: Json, reply: Callback)
    requires customerId.Truthy() ==> Answered(reply)
    ensures GetCustomer(customerId, reply) == AuthorizeNet.GetCustomer(customerId, reply)
  {
  }
}

=== FILE: digits.dfy ===
/** Decimal digit strings: the value a digit string denotes and the shortest
    decimal rendering of a natural number. */
module Digits {

  predicate IsDigit(c: char) {
    '0' <= c <= '9'
  }

  predicate AllDigits(s: string) {
    forall i :: 0 <= i < |s| ==> IsDigit(s[i])
  }

  function DigitValue(c: char): (d: nat)
    requires IsDigit(c)
    ensures d < 10
  {
    c as int - '0' as int
  }

  function DigitChar(d: nat): (c: char)
    requires d < 10
    ensures IsDigit(c) && DigitValue(c) == d
  {
    ('0' as int + d) as char
  }

  /** The number a digit string denotes, most significant digit first. */
  function ValueOf(s: string): nat
    requires AllDigits(s)
    decreases |s|
  {
    if |s| == 0 then 0 else ValueOf(s[..|s| - 1]) * 10 + DigitValue(s[|s| - 1])
  }

  /** The shortest decimal rendering of n, as JavaScript's number-to-string gives it. */
  function Render(n: nat): (r: string)
    ensures |r| > 0 && AllDigits(r)
    ensures |r| > 1 ==> r[0] != '0'
    decreases n
  {
    if n < 10 then [DigitChar(n)] else Render(n / 10) + [DigitChar(n % 10)]
  }

  /** Two digits, with a leading zero below ten. */
  function Pad2(n: nat): (r: string)
    requires n < 100
    ensures |r| == 2 && AllDigits(r)
  {
    [DigitChar(n / 10), DigitChar(n % 10)]
  }

  /** Reading back a rendering gives the number rendered. */
  lemma {:induction false} ValueOfRender(n: nat)
    ensures ValueOf(Render(n)) == n
    decreases n
  {
    if n >= 10 {
      var r := Render(n / 10) + [DigitChar(n % 10)];
      assert r[..|r| - 1] == Render(n / 10);
      ValueOfRender(n / 10);
    }
  }

  lemma ValueOfPad2(n: nat)
    requires n < 100
    ensures ValueOf(Pad2(n)) == n
  {
    var r := Pad2(n);
    assert r[..1] == [DigitChar(n / 10)];
    assert r[..1][..0] == [];
    assert ValueOf(r[..1]) == n / 10;
    assert ValueOf(r) == ValueOf(r[..1]) * 10 + n % 10;
  }
}

=== FILE: factory.dfy ===
/** The entry point (lib/GhostPaymentServiceFactory.js and the two
    per-processor factories): picks an adapter by the `processor` option and
    builds it from that processor's own sub-configuration. */
module PaymentServiceFactory {
  import opened Js
  import opened Promises
  import opened Vendor
  import AbstractService
  import Stripe

  const UnknownProcessor: string := "GhostPaymentService: Unknown payment processor."

  /** A constructed adapter, with the credentials it was given. */
  datatype Service =
    | AuthorizeNetService(apiLoginId: Json, transactionKey: Json, sandboxMode: Json)
    | StripeService(secretKey: Json)
  {
    function Adapter(): AbstractService.Adapter {
      if AuthorizeNetService? then AbstractService.AuthorizeNetAdapter else AbstractService.StripeAdapter
    }
  }

  /** `processor == name` with JavaScript's loose equality, for the names
      'authorizeNet' and 'stripe': a string equals only itself, and an array
      compares by its joined text, so a one-element array equals what its
      element equals and a longer one, whose text holds a comma, equals
      neither. A number or Boolean compares as a number with the name's NaN,
      an object prints as "[object Object]", and null and undefined equal only
      each other: none of these ever matches. */
  predicate ProcessorIs(j: Json, name: string)
    ensures ProcessorIs(j, name) ==> j.Str? || j.Arr?
    ensures j.Str? ==> (ProcessorIs(j, name) <==> j.s == name)
    decreases j
  {
    match j
    case Str(s) => s == name
    case Arr(items) => |items| == 1 && ProcessorIs(items[0], name)
    case _ => false
  }

  /** The loose comparison can pick at most one processor. */
  lemma {:induction false} ProcessorIsExclusive(j: Json, a: string, b: string)
    requires ProcessorIs(j, a) && ProcessorIs(j, b)
    ensures a == b
    decreases j
  {
    match j
    case Str(s) =>
    case Arr(items) =>
      assert items[0] < j;
      ProcessorIsExclusive(items[0], a, b);
  }

  /** A value that matches a name prints as that name, as loose equality
      with a string compares the value's text. */
  lemma {:induction false} ProcessorIsText(j: Json, name: string)
    requires ProcessorIs(j, name)
    ensures ToText(j) == name
    decreases j
  {
    match j
    case Str(s) =>
    case Arr(items) =>
      assert items[0] < j;
      ProcessorIsText(items[0], name);
      assert JoinTexts(j, 0) == ToText(items[0]);
  }

  /** A per-processor factory's `options = {}`: only a missing sub-configuration
      is replaced by an empty object; null is passed on. */
  function Defaulted(config: Json): (c: Json)
    ensures config != Undefined ==> c == config
    ensures !c.Nullish() <==> config != Null
  {
    if config == Undefined then Obj(map[]) else config
  }

  /** `new GhostPaymentServiceFactory(options)`. The adapter constructors read
      their credentials from the sub-configuration, so a null one throws. */
  function CreateService(options: Json): (r: Result<Service>)
    ensures options.Nullish() ==> r == Err(TypeError)
    ensures !options.Nullish() ==>
      var processor := Get(options, "processor");
      && (r.Ok? && r.value.AuthorizeNetService? <==> ProcessorIs(processor, "authorizeNet") && Get(options, "authorizeNet") != Null)
      && (r.Ok? && r.value.StripeService? <==>
            !ProcessorIs(processor, "authorizeNet") && ProcessorIs(processor, "stripe") && Get(options, "stripe") != Null)
      && (r == Err(Error(UnknownProcessor)) <==> !ProcessorIs(processor, "authorizeNet") && !ProcessorIs(processor, "stripe"))
      && (r.Err? && r.failure != Error(UnknownProcessor) ==> r.failure == TypeError)
    ensures r.Ok? && r.value.AuthorizeNetService? ==>
      var config := Defaulted(Get(options, "authorizeNet"));
      && r.value.apiLoginId == Get(config, "apiLoginId")
      && r.value.transactionKey == Get(config, "transactionKey")
      && r.value.sandboxMode == Get(config, "sandboxMode")
    ensures r.Ok? && r.value.AuthorizeNetService? && Get(options, "authorizeNet") == Undefined ==>
      r.value == AuthorizeNetService(Undefined, Undefined, Undefined)
    ensures r.Ok? && r.value.StripeService? ==>
      r.value.secretKey == Get(Defaulted(Get(options, "stripe")), "secretKey")
    ensures r.Ok? && r.value.StripeService? && Get(options, "stripe") == Undefined ==>
      r.value == StripeService(Undefined)
  {
    if options.Nullish() then Err(TypeError)
    else
      var processor := Get(options, "processor");
      if ProcessorIs(processor, "authorizeNet") then
        var config := Defaulted(Get(options, "authorizeNet"));
        if config.Nullish() then Err(TypeError)
        else Ok(AuthorizeNetService(Get(config, "apiLoginId"), Get(config, "transactionKey"), Get(config, "sandboxMode")))
      else if ProcessorIs(processor, "stripe") then
        var config := Defaulted(Get(options, "stripe"));
        if config.Nullish() then Err(TypeError)
        else Ok(StripeService(Get(config, "secretKey")))
      else Err(Error(UnknownProcessor))
  }

  /** Only `processor` and the chosen processor's sub-configuration matter:
      changing any other option, the other processor's sub-configuration
      included, builds the same service or fails the same way. */
  lemma OtherOptionsIgnored(fields: map<string, Json>, key: string, v: Json)
    requires key != "processor"
    ensures var processor := Get(Obj(fields), "processor");
      ProcessorIs(processor, "authorizeNet") && key != "authorizeNet" ==>
        CreateService(Obj(fields[key := v])) == CreateService(Obj(fields))
    ensures var processor := Get(Obj(fields), "processor");
      !ProcessorIs(processor, "authorizeNet") && key != "stripe" ==>
        CreateService(Obj(fields[key := v])) == CreateService(Obj(fields))
    ensures var processor := Get(Obj(fields), "processor");
      !ProcessorIs(processor, "authorizeNet") && !ProcessorIs(processor, "stripe") ==>
        CreateService(Obj(fields[key := v])) == Err(Error(UnknownProcessor))
  {
    var changed := Obj(fields[key := v]);
    assert Get(changed, "processor") == Get(Obj(fields), "processor");
    assert key != "authorizeNet" ==> Get(changed, "authorizeNet") == Get(Obj(fields), "authorizeNet");
    assert key != "stripe" ==> Get(changed, "stripe") == Get(Obj(fields), "stripe");
  }

  lemma CreateServiceExamples()
    ensures CreateService(Obj(map["processor" := Str("stripe")])) == Ok(StripeService(Undefined))
    ensures CreateService(Obj(map["processor" := Arr([Str("authorizeNet")])])).Ok?
    ensures CreateService(Obj(map["processor" := Str("paypal")])) == Err(Error(UnknownProcessor))
    ensures CreateService(Obj(map["processor" := Str("stripe"), "stripe" := Null])) == Err(TypeError)
  {
    assert Get(Obj(map["processor" := Arr([Str("authorizeNet")])]), "processor") == Arr([Str("authorizeNet")]);
  }

  // ---------------------------------------------------------------------------
  // The operations the Authorize.Net adapter leaves to the base class

  /** `service.isValidErrorCode(code)`: a plain answer from Stripe, the base
      rejection from Authorize.Net. */
  function IsValidErrorCodeOn(s: Service, code: Json): (r: Result<bool>)
    ensures s.StripeService? ==> r == Ok(Stripe.KnownErrorCode(code))
    ensures s.AuthorizeNetService? ==> r == Err(Error(AbstractService.AbstractMessage))
  {
    if AbstractService.Inherits(s.Adapter(), AbstractService.IsValidErrorCode)
    then Err(AbstractService.BaseOutcome(AbstractService.IsValidErrorCode).failure)
    else Ok(Stripe.KnownErrorCode(code))
  }

  /** `service.deleteCustomer(data)`. */
  function DeleteCustomerOn(s: Service, data: Json, reply: Callback): (r: Run<Json>)
    ensures s.StripeService? ==> r == Stripe.DeleteCustomer(data, reply)
    ensures s.AuthorizeNetService? ==> r == Run(Err(Error(AbstractService.AbstractMessage)), [])
  {
    if AbstractService.Inherits(s.Adapter(), AbstractService.DeleteCustomer)
    then Run(AbstractService.BaseOutcome(AbstractService.DeleteCustomer), [])
    else Stripe.DeleteCustomer(data, reply)
  }

  /** `service.updateCustomer(data)`. */
  function UpdateCustomerOn(s: Service, data: Json, reply: Callback): (r: Run<Json>)
    ensures s.StripeService? ==> r == Stripe.UpdateCustomer(data, reply)
    ensures s.AuthorizeNetService? ==> r == Run(Err(Error(AbstractService.AbstractMessage)), [])
  {
    if AbstractService.Inherits(s.Adapter(), AbstractService.UpdateCustomer)
    then Run(AbstractService.BaseOutcome(AbstractService.UpdateCustomer), [])
    else Stripe.UpdateCustomer(data, reply)
  }

  /** The abstract-method error never comes from a Stripe service: Stripe's
      own failures are the vendor's errors or TypeErrors. */
  lemma AbstractErrorOnlyFromAuthorizeNet(s: Service, data: Json, reply: Callback)
    ensures DeleteCustomerOn(s, data, reply).result == Err(Error(AbstractService.AbstractMessage)) ==> s.AuthorizeNetService?
    ensures UpdateCustomerOn(s, data, reply).result == Err(Error(AbstractService.AbstractMessage)) ==> s.AuthorizeNetService?
    ensures s.StripeService? ==> IsValidErrorCodeOn(s, Str("card_declined")) == Ok(true)
  {
    if s.StripeService? {
      Stripe.FailuresAreNeverMessages(data, reply, reply);
      assert "card_declined" in Stripe.ErrorCodes;
    }
  }
}

=== FILE: js.dfy ===
/** JavaScript values as the payment adapters see them: request fields, vendor
    replies and the request bodies handed to the vendor clients. Only what the
    adapters observe is modelled: truthiness, property reads and lodash's head. */
module Js {
  import opened Digits

  /** An optional value, used for record fields that may be absent. */
  datatype Option<+T> = None | Some(value: T) {
    function GetOr(default: T): T {
      match this
      case Some(v) => v
      case None => default
    }
  }

  /** A JavaScript value. Numbers are restricted to integers (no NaN, no
      fractions); an object is the finite map of its own properties. */
  datatype Json =
    | Undefined
    | Null
    | Bool(b: bool)
    | Num(n: int)
    | Str(s: string)
    | Arr(items: seq<Json>)
    | Obj(fields: map<string, Json>)
  {
    /** Reading a property of these throws a TypeError. */
    predicate Nullish() {
      Undefined? || Null?
    }

    /** JavaScript truthiness: undefined, null, false, 0 and "" are falsy;
        every array and every object is truthy. */
    predicate Truthy() {
      match this
      case Undefined => false
      case Null => false
      case Bool(b) => b
      case Num(n) => n != 0
      case Str(s) => s != ""
      case Arr(_) => true
      case Obj(_) => true
    }
  }

  /** `!!field` for an optional string field: present and non-empty. */
  predicate Filled(o: Option<string>) {
    o.Some? && o.value != ""
  }

  /** `String(j)`: JavaScript's conversion of a value to text. An integer
      prints in decimal with a leading minus sign when negative; an array
      prints its elements' texts joined by commas, null and undefined elements
      printing as nothing; a plain object prints as "[object Object]". From
      10^21 on JavaScript prints integers in exponent notation, which is not
      modelled here. */
  function ToText(j: Json): (t: string)
    ensures j.Str? ==> t == j.s
    ensures j.Num? && j.n >= 0 ==> AllDigits(t) && ValueOf(t) == j.n
    ensures j.Num? && j.n < 0 ==> |t| > 1 && t[0] == '-' && AllDigits(t[1..]) && ValueOf(t[1..]) == -j.n
    ensures j.Num? && j.n >= 0 && |t| > 1 ==> t[0] != '0'
    ensures j.Num? && j.n < 0 && |t| > 2 ==> t[1] != '0'
    decreases j, 1, 0
  {
    match j
    case Undefined => "undefined"
    case Null => "null"
    case Bool(b) => if b then "true" else "false"
    case Num(n) =>
      if n < 0 then
        ValueOfRender(-n);
        assert ("-" + Render(-n))[1..] == Render(-n);
        "-" + Render(-n)
      else
        ValueOfRender(n);
        Render(n)
    case Str(s) => s
    case Arr(_) => JoinTexts(j, 0)
    case Obj(_) => "[object Object]"
  }

  /** `items.slice(i).join(',')` for the elements of the array `arr` from i on. */
  function JoinTexts(arr: Json, i: nat): string
    requires arr.Arr? && i <= |arr.items|
    decreases arr, 0, |arr.items| - i
  {
    if i == |arr.items| then ""
    else
      var item := arr.items[i];
      var text := if item.Nullish() then "" else ToText(item);
      if i + 1 == |arr.items| then text else text + "," + JoinTexts(arr, i + 1)
  }

  /** `j[key]` for a named (non-index) key, on a value that is not nullish:
      own properties of objects, `length` of arrays and strings, nothing else. */
  function Get(j: Json, key: string): Json {
    match j
    case Obj(m) => if key in m then m[key] else Undefined
    case Arr(xs) => if key == "length" then Num(|xs|) else Undefined
    case Str(s) => if key == "length" then Num(|s|) else Undefined
    case _ => Undefined
  }

  /** `j[0]` on a value that is not nullish. */
  function First(j: Json): Json {
    match j
    case Arr(xs) => if |xs| > 0 then xs[0] else Undefined
    case Str(s) => if |s| > 0 then Str([s[0]]) else Undefined
    case Obj(m) => if "0" in m then m["0"] else Undefined
    case _ => Undefined
  }

  /** lodash `_.head(j)`: `(j && j.length) ? j[0] : undefined`. */
  function Head(j: Json): (h: Json)
    ensures j.Arr? ==> h == (if |j.items| > 0 then j.items[0] else Undefined)
    ensures j.Str? ==> h == (if |j.s| > 0 then Str([j.s[0]]) else Undefined)
    ensures j.Nullish() || j.Bool? || j.Num? ==> h == Undefined
  {
    if j.Truthy() && Get(j, "length").Truthy() then First(j) else Undefined
  }
}

=== FILE: promises.dfy ===
/** How the adapters settle: every vendor client answers through a Node-style
    callback `(err, value)`, and every adapter method returns a promise that
    settles once. */
module Promises {
  import opened Js

  /** Why a promise was rejected. */
  datatype Failure =
    | Error(message: string)   // an `Error` object thrown or rejected with this message
    | Reason(value: Json)      // a rejection with a plain value: a bare string or the vendor's `err`
    | TypeError                // a property read of null or undefined inside a promise chain

  datatype Result<+T> = Ok(value: T) | Err(failure: Failure)

  /** How a returned promise ends: settled with a result, or pending forever
      because the callback that was to settle it threw first. */
  datatype Settlement<+T> = Settled(result: Result<T>) | Pending

  /** The arguments a vendor client passes to its completion callback. */
  datatype Callback = Callback(err: Json, value: Json)

  /** The callback body every wrapper uses: `if (err) reject(err); else resolve(value)`. */
  function Settle(reply: Callback): (r: Result<Json>)
    ensures r.Err? <==> reply.err.Truthy()
    ensures r.Err? ==> r.failure == Reason(reply.err) && r.failure.value.Truthy()
    ensures r.Ok? ==> r.value == reply.value
  {
    if reply.err.Truthy() then Err(Reason(reply.err)) else Ok(reply.value)
  }

  /** The vendor reports either an error or a value that properties can be read
      from. A reply outside this would make the adapter's callback throw outside
      any promise, so the returned promise would never settle. */
  predicate Answered(reply: Callback) {
    reply.err.Truthy() || !reply.value.Nullish()
  }

  /** A promise executor may call `reject` and `resolve` several times; only the
      first call decides the outcome and the later ones are ignored. */
  function FirstSettled<T>(attempts: seq<Result<T>>): (r: Result<T>)
    requires |attempts| > 0
    ensures r in attempts
  {
    attempts[0]
  }

  /** Settling again after the first settlement changes nothing. */
  lemma LaterSettlementsIgnored<T>(attempts: seq<Result<T>>, later: seq<Result<T>>)
    requires |attempts| > 0
    ensures FirstSettled(attempts + later) == FirstSettled(attempts)
  {
    assert (attempts + later)[0] == attempts[0];
  }
}

=== FILE: schemata.dfy ===
/** The declarative field rules for Authorize.Net billing addresses and credit
    cards (lib/authorizeNet/schemata.js): one rule per field, each rejecting
    with its own fixed message. */
module Schemata {
  import opened Js
  import opened Digits

  datatype AddressField = FirstName | LastName | Address | City | Country | State | Zip

  datatype CardField = Number | ExpYear | ExpMonth | Cvc

  function AddressMessage(f: AddressField): string {
    match f
    case FirstName => "Missing billing address first name."
    case LastName => "Missing billing address last name."
    case Address => "Missing billing address."
    case City => "Missing billing address city."
    case Country => "Only US cards are supported at this time."
    case State => "Missing billing address state."
    case Zip => "Missing billing address zip."
  }

  function CardMessage(f: CardField): string {
    match f
    case Number => "Invalid credit card number."
    case ExpYear => "Invalid expiration year."
    case ExpMonth => "Invalid expiration month."
    case Cvc => "Invalid CVC."
  }

  /** Every address rule is `Joi.string().required()`: the value must be a
      non-empty string. `country` also allows 'us', which only whitelists that
      value and rejects nothing else. Yields the rejection message, if any. */
  function CheckAddressField(f: AddressField, v: Option<string>): (r: Option<string>)
    ensures r.None? <==> Filled(v)
    ensures r.Some? ==> r.value == AddressMessage(f)
  {
    if Filled(v) then None else Some(AddressMessage(f))
  }

  // ---------------------------------------------------------------------------
  // Expiration year: /^[12][0-9]{3}$/

  predicate ExpYearPattern(s: string) {
    && |s| == 4
    && (s[0] == '1' || s[0] == '2')
    && IsDigit(s[1]) && IsDigit(s[2]) && IsDigit(s[3])
  }

  lemma ValueOf4(s: string)
    requires |s| == 4 && AllDigits(s)
    ensures ValueOf(s) == 1000 * DigitValue(s[0]) + 100 * DigitValue(s[1]) + 10 * DigitValue(s[2]) + DigitValue(s[3])
  {
    var p1, p2, p3 := s[..1], s[..2], s[..3];
    assert p3[..2] == p2 && p2[..1] == p1 && p1[..0] == [];
    assert ValueOf(p1) == DigitValue(s[0]);
    assert ValueOf(p2) == ValueOf(p1) * 10 + DigitValue(s[1]);
    assert ValueOf(p3) == ValueOf(p2) * 10 + DigitValue(s[2]);
    assert ValueOf(s) == ValueOf(p3) * 10 + DigitValue(s[3]);
  }

  /** The year pattern accepts exactly the four-digit years 1000 to 2999. */
  lemma ExpYearPatternMeaning(s: string)
    ensures ExpYearPattern(s) <==> |s| == 4 && AllDigits(s) && 1000 <= ValueOf(s) <= 2999
  {
    if |s| == 4 && AllDigits(s) {
      ValueOf4(s);
    }
  }

  // ---------------------------------------------------------------------------
  // Expiration month: /^(0?[1-9]|1[012])$/

  predicate ExpMonthPattern(s: string) {
    || (|s| == 1 && '1' <= s[0] <= '9')
    || (|s| == 2 && s[0] == '0' && '1' <= s[1] <= '9')
    || (|s| == 2 && s[0] == '1' && '0' <= s[1] <= '2')
  }

  /** The month pattern accepts exactly the one- or two-digit spellings of 1 to 12. */
  lemma ExpMonthPatternMeaning(s: string)
    ensures ExpMonthPattern(s) <==> 1 <= |s| <= 2 && AllDigits(s) && 1 <= ValueOf(s) <= 12
  {
    if |s| == 1 && AllDigits(s) {
      assert s[..0] == [];
    } else if |s| == 2 && AllDigits(s) {
      var p1 := s[..1];
      assert p1[..0] == [];
      assert ValueOf(p1) == DigitValue(s[0]);
      assert ValueOf(s) == ValueOf(p1) * 10 + DigitValue(s[1]);
    }
  }

  lemma ExpMonthExamples()
    ensures ExpMonthPattern("1") && ExpMonthPattern("09") && ExpMonthPattern("12")
    ensures !ExpMonthPattern("0") && !ExpMonthPattern("00") && !ExpMonthPattern("13")
  {
  }

  // ---------------------------------------------------------------------------
  // Card number: the Luhn mod-10 check of ISO/IEC 7812-1, Annex B

  /** The Luhn weight of a digit: itself, or, when doubled, twice itself with
      nine subtracted from results above nine. */
  function LuhnWeight(d: nat, doubled: bool): (w: nat)
    requires d < 10
    ensures w < 10
  {
    if !doubled then d else if 2 * d > 9 then 2 * d - 9 else 2 * d
  }

  /** The Luhn sum, where counting from the rightmost digit every second digit is doubled. */
  function LuhnSum(s: string): nat
    requires AllDigits(s)
    decreases |s|
  {
    if |s| == 0 then 0
    else LuhnWeight(DigitValue(s[0]), (|s| - 1) % 2 == 1) + LuhnSum(s[1..])
  }

  /** The card-number rule: digits only, with a Luhn sum that is a positive
      multiple of ten. */
  predicate LuhnValid(s: string) {
    AllDigits(s) && LuhnSum(s) % 10 == 0 && LuhnSum(s) > 0
  }

  /** A number of zeros has a Luhn sum of zero, so the rule rejects it. */
  lemma {:induction false} ZerosAreRejected(s: string)
    requires forall i :: 0 <= i < |s| ==> s[i] == '0'
    ensures AllDigits(s) && LuhnSum(s) == 0 && !LuhnValid(s)
    decreases |s|
  {
    if |s| > 0 {
      assert forall i :: 0 <= i < |s[1..]| ==> s[1..][i] == s[i + 1];
      ZerosAreRejected(s[1..]);
    }
  }

  /** The check as a loop from the rightmost digit, toggling the doubling. */
  method LuhnCheck(s: string) returns (ok: bool)
    ensures ok <==> LuhnValid(s)
  {
    var i := |s|;
    var sum := 0;
    var doubled := false;
    while i > 0
      invariant 0 <= i <= |s|
      invariant AllDigits(s[i..])
      invariant sum == LuhnSum(s[i..])
      invariant doubled <==> (|s| - i) % 2 == 1
    {
      i := i - 1;
      if !IsDigit(s[i]) {
        return false;
      }
      assert s[i..][1..] == s[i + 1..];
      sum := sum + LuhnWeight(DigitValue(s[i]), doubled);
      doubled := !doubled;
    }
    assert s[0..] == s;
    ok := sum % 10 == 0 && sum > 0;
  }

  /** Replacing the digit at j changes the Luhn sum by the change in that digit's weight. */
  lemma {:induction false} LuhnSumUpdate(s: string, j: nat, c: char)
    requires AllDigits(s) && j < |s| && IsDigit(c)
    ensures AllDigits(s[j := c])
    ensures LuhnSum(s[j := c]) + LuhnWeight(DigitValue(s[j]), (|s| - 1 - j) % 2 == 1)
         == LuhnSum(s) + LuhnWeight(DigitValue(c), (|s| - 1 - j) % 2 == 1)
    decreases j
  {
    var t := s[j := c];
    if j == 0 {
      assert t[1..] == s[1..];
    } else {
      assert t[1..] == s[1..][j - 1 := c];
      LuhnSumUpdate(s[1..], j - 1, c);
    }
  }

  /** The Luhn check catches every single mistyped digit. */
  lemma LuhnCatchesSingleWrongDigit(s: string, j: nat, c: char)
    requires LuhnValid(s) && j < |s| && IsDigit(c) && c != s[j]
    ensures !LuhnValid(s[j := c])
  {
    LuhnSumUpdate(s, j, c);
    var doubled := (|s| - 1 - j) % 2 == 1;
    LuhnWeightInjective(DigitValue(s[j]), DigitValue(c), doubled);
    ShiftBreaksMultipleOfTen(LuhnSum(s), LuhnSum(s[j := c]),
      LuhnWeight(DigitValue(s[j]), doubled), LuhnWeight(DigitValue(c), doubled));
  }

  lemma ShiftBreaksMultipleOfTen(x: int, y: int, a: int, b: int)
    requires x % 10 == 0 && y + a == x + b
    requires 0 <= a < 10 && 0 <= b < 10 && a != b
    ensures y % 10 != 0
  {
  }

  lemma LuhnWeightInjective(d: nat, e: nat, doubled: bool)
    requires d < 10 && e < 10 && d != e
    ensures LuhnWeight(d, doubled) != LuhnWeight(e, doubled)
  {
  }

  // ---------------------------------------------------------------------------
  // The card rules

  /** `number` is required and must pass the card-number check; `exp_year` is
      optional but must match the year pattern when given; `exp_month` is
      required and must match the month pattern; `cvc` is required with 3 to 4
      characters of any kind. Yields the rejection message, if any. */
  function CheckCardField(f: CardField, v: Option<string>): (r: Option<string>)
    ensures r.Some? ==> r.value == CardMessage(f)
    ensures f == Number ==> (r.None? <==> Filled(v) && LuhnValid(v.value))
    ensures f == ExpYear ==>
      (r.None? <==> v.None? || (|v.value| == 4 && AllDigits(v.value) && 1000 <= ValueOf(v.value) <= 2999))
    ensures f == ExpMonth ==>
      (r.None? <==> v.Some? && 1 <= |v.value| <= 2 && AllDigits(v.value) && 1 <= ValueOf(v.value) <= 12)
    ensures f == Cvc ==> (r.None? <==> v.Some? && 3 <= |v.value| <= 4)
  {
    var ok :=
      match f
      case Number => Filled(v) && LuhnValid(v.value)
      case ExpYear => v.None? || ExpYearPattern(v.value)
      case ExpMonth => v.Some? && ExpMonthPattern(v.value)
      case Cvc => v.Some? && 3 <= |v.value| <= 4;
    if v.Some? then
      ExpYearPatternMeaning(v.value);
      ExpMonthPatternMeaning(v.value);
      if ok then None else Some(CardMessage(f))
    else
      if ok then None else Some(CardMessage(f))
  }
}

=== FILE: stripe_service.dfy ===
/** The Stripe adapter (lib/stripe/stripeService.js): one client call per
    operation (two for card creation), no local validation. The request
    `data` is the caller's JavaScript value; reading a property of a null or
    undefined `data` rejects with a TypeError before any call. */
module Stripe {
  import opened Js
  import opened Promises
  import opened Vendor

  /** The decline and validation codes a caller may show to the user. */
  const ErrorCodes: seq<string> := [
    "invalid_number", "invalid_expiry_month", "invalid_expiry_year", "invalid_cvc",
    "incorrect_number", "expired_card", "incorrect_cvc", "incorrect_zip",
    "card_declined", "missing", "processing_error"
  ]

  predicate KnownErrorCode(code: Json) {
    code.Str? && code.s in ErrorCodes
  }

  lemma ErrorCodesAreElevenDistinct()
    ensures |ErrorCodes| == 11
    ensures forall i, j :: 0 <= i < j < |ErrorCodes| ==> ErrorCodes[i] != ErrorCodes[j]
  {
  }

  /** `Array.prototype.indexOf` with strict equality: the first position
      holding exactly x, or -1. */
  method IndexOf(xs: seq<string>, x: Json) returns (i: int)
    ensures -1 <= i < |xs|
    ensures i >= 0 ==> x == Str(xs[i]) && forall j :: 0 <= j < i ==> x != Str(xs[j])
    ensures i == -1 <==> forall j :: 0 <= j < |xs| ==> x != Str(xs[j])
  {
    var k := 0;
    while k < |xs|
      invariant 0 <= k <= |xs|
      invariant forall j :: 0 <= j < k ==> x != Str(xs[j])
    {
      if x == Str(xs[k]) {
        return k;
      }
      k := k + 1;
    }
    return -1;
  }

  /** `isValidErrorCode`: true exactly for the eleven codes, compared as strings. */
  method IsValidErrorCode(code: Json) returns (valid: bool)
    ensures valid <==> KnownErrorCode(code)
  {
    var i := IndexOf(ErrorCodes, code);
    valid := i >= 0;
    if valid {
      assert code.s == ErrorCodes[i];
    } else if code.Str? {
      assert forall j :: 0 <= j < |ErrorCodes| ==> code.s != ErrorCodes[j];
    }
  }

  /** Reading a property of a null or undefined request throws; inside a
      promise executor that is a rejection with no call issued. */
  function Unreadable(): Run<Json> {
    Run(Err(TypeError), [])
  }

  // ---------------------------------------------------------------------------
  // Card creation: tokenise, then attach

  /** `createCard`: the raw card is exchanged for a token, and only a token
      that arrived is attached to the customer as a source; a failed token
      step ends the operation with that failure. */
  function CreateCard(data: Json, tokenReply: Callback, sourceReply: Callback): (r: Run<Json>)
    ensures data.Nullish() ==> r == Run(Err(TypeError), [])
    ensures !data.Nullish() ==> 1 <= |r.calls| <= 2 && r.calls[0] == TokensCreate(Obj(map["card" := Get(data, "card")]))
    ensures !data.Nullish() && tokenReply.err.Truthy() ==> r.result == Err(Reason(tokenReply.err)) && |r.calls| <= 1
    ensures |r.calls| == 2 <==> !data.Nullish() && !tokenReply.err.Truthy() && !tokenReply.value.Nullish()
    ensures |r.calls| == 2 ==>
      && r.calls[1] == CustomersCreateSource(Get(data, "customerId"), Obj(map["source" := Get(tokenReply.value, "id")]))
      && Forwards(Run(r.result, r.calls[1..]), r.calls[1], sourceReply)
    ensures |r.calls| == 1 && !tokenReply.err.Truthy() ==> r.result == Err(TypeError)
  {
    if data.Nullish() then Unreadable()
    else
      var tokenize := TokensCreate(Obj(map["card" := Get(data, "card")]));
      match Settle(tokenReply)
      case Err(f) => Run(Err(f), [tokenize])
      case Ok(token) =>
        if token.Nullish() then Run(Err(TypeError), [tokenize])
        else
          var attach := CustomersCreateSource(Get(data, "customerId"), Obj(map["source" := Get(token, "id")]));
          Run(Settle(sourceReply), [tokenize, attach])
  }

  /** The second step of card creation: attach the token to the customer. */
  function Attach(data: Json, token: Json, sourceReply: Callback): (r: Run<Json>)
    ensures token.Nullish() ==> r == Unreadable()
    ensures !token.Nullish() ==>
      Forwards(r, CustomersCreateSource(Get(data, "customerId"), Obj(map["source" := Get(token, "id")])), sourceReply)
  {
    if token.Nullish() then Unreadable()
    else Forward(CustomersCreateSource(Get(data, "customerId"), Obj(map["source" := Get(token, "id")])), sourceReply)
  }

  /** Card creation is the promise chain of its two client calls: the token
      request, then, once a token arrived, the attachment. */
  lemma CreateCardIsTokenThenAttach(data: Json, tokenReply: Callback, sourceReply: Callback)
    requires !data.Nullish()
    ensures CreateCard(data, tokenReply, sourceReply) ==
      AndThen(Forward(TokensCreate(Obj(map["card" := Get(data, "card")])), tokenReply),
              (token) => Attach(data, token, sourceReply))
  {
  }

  // ---------------------------------------------------------------------------
  // Request bodies built by the adapter

  /** `updatePlan`'s body: always the name, and the metadata only when it has
      a truthy description; the plan id and every other field stay out. */
  function PlanUpdateBody(data: Json): (body: map<string, Json>)
    ensures "name" in body && body["name"] == Get(data, "name")
    ensures "metadata" in body <==> Get(data, "metadata").Truthy() && Get(Get(data, "metadata"), "description").Truthy()
    ensures "metadata" in body ==> body["metadata"] == Get(data, "metadata")
    ensures body.Keys <= {"name", "metadata"}
  {
    var metadata := Get(data, "metadata");
    if metadata.Truthy() && Get(metadata, "description").Truthy()
    then map["name" := Get(data, "name"), "metadata" := metadata]
    else map["name" := Get(data, "name")]
  }

  /** `updateCustomer`'s payload: the request with `customerId` deleted. */
  function CustomerUpdateBody(data: Json): (body: Json)
    ensures data.Obj? ==> body.Obj? && body.fields.Keys == data.fields.Keys - {"customerId"}
    ensures data.Obj? ==> forall k :: k in body.fields ==> body.fields[k] == data.fields[k]
    ensures !data.Obj? ==> body == data
  {
    match data
    case Obj(m) => Obj(map k | k in m && k != "customerId" :: m[k])
    case _ => data
  }

  /** Putting the customer id back into the payload restores the request. */
  lemma CustomerUpdateBodyRestores(data: Json)
    requires data.Obj? && "customerId" in data.fields
    ensures CustomerUpdateBody(data).fields["customerId" := Get(data, "customerId")] == data.fields
  {
    var restored := CustomerUpdateBody(data).fields["customerId" := Get(data, "customerId")];
    assert restored.Keys == data.fields.Keys;
  }

  /** The plan body depends on the name and the metadata alone. */
  lemma PlanUpdateBodyIgnoresOtherFields(fields: map<string, Json>, key: string, v: Json)
    requires key != "name" && key != "metadata"
    ensures PlanUpdateBody(Obj(fields[key := v])) == PlanUpdateBody(Obj(fields))
  {
    assert Get(Obj(fields[key := v]), "name") == Get(Obj(fields), "name");
    assert Get(Obj(fields[key := v]), "metadata") == Get(Obj(fields), "metadata");
  }

  /** `updatePlan`. */
  function UpdatePlan(data: Json, reply: Callback): (r: Run<Json>)
    ensures data.Nullish() ==> r == Run(Err(TypeError), [])
    ensures !data.Nullish() ==> Forwards(r, PlansUpdate(Get(data, "planId"), Obj(PlanUpdateBody(data))), reply)
  {
    if data.Nullish() then Unreadable()
    else Forward(PlansUpdate(Get(data, "planId"), Obj(PlanUpdateBody(data))), reply)
  }

  /** `updateCustomer`: the customer id names the target and leaves the payload. */
  function UpdateCustomer(data: Json, reply: Callback): (r: Run<Json>)
    ensures data.Nullish() ==> r == Run(Err(TypeError), [])
    ensures !data.Nullish() ==> Forwards(r, CustomersUpdate(Get(data, "customerId"), CustomerUpdateBody(data)), reply)
  {
    if data.Nullish() then Unreadable()
    else Forward(CustomersUpdate(Get(data, "customerId"), CustomerUpdateBody(data)), reply)
  }

  /** `setDefaultCard`: the customer update carries only `default_source`. */
  function SetDefaultCard(data: Json, reply: Callback): (r: Run<Json>)
    ensures data.Nullish() ==> r == Run(Err(TypeError), [])
    ensures !data.Nullish() ==>
      Forwards(r, CustomersUpdate(Get(data, "customerId"), Obj(map["default_source" := Get(data, "cardId")])), reply)
  {
    if data.Nullish() then Unreadable()
    else Forward(CustomersUpdate(Get(data, "customerId"), Obj(map["default_source" := Get(data, "cardId")])), reply)
  }

  /** `createSubscription`: the customer update carries only `plan`. */
  function CreateSubscription(data: Json, reply: Callback): (r: Run<Json>)
    ensures data.Nullish() ==> r == Run(Err(TypeError), [])
    ensures !data.Nullish() ==>
      Forwards(r, CustomersUpdate(Get(data, "customerId"), Obj(map["plan" := Get(data, "planId")])), reply)
  {
    if data.Nullish() then Unreadable()
    else Forward(CustomersUpdate(Get(data, "customerId"), Obj(map["plan" := Get(data, "planId")])), reply)
  }

  /** Each customer update sends one field, taken from one request field: the
      rest of the request changes nothing in the body. */
  lemma CustomerUpdatesSendOneField(fields: map<string, Json>, key: string, v: Json, reply: Callback)
    ensures SetDefaultCard(Obj(fields), reply).calls[0].body.fields.Keys == {"default_source"}
    ensures CreateSubscription(Obj(fields), reply).calls[0].body.fields.Keys == {"plan"}
    ensures key != "cardId" ==>
      SetDefaultCard(Obj(fields[key := v]), reply).calls[0].body == SetDefaultCard(Obj(fields), reply).calls[0].body
    ensures key != "planId" ==>
      CreateSubscription(Obj(fields[key := v]), reply).calls[0].body == CreateSubscription(Obj(fields), reply).calls[0].body
  {
    assert key != "cardId" ==> Get(Obj(fields[key := v]), "cardId") == Get(Obj(fields), "cardId");
    assert key != "planId" ==> Get(Obj(fields[key := v]), "planId") == Get(Obj(fields), "planId");
  }

  /** `fetchPlans`: resolves with the list inside the vendor's envelope. */
  function FetchPlans(data: Json, reply: Callback): (r: Run<Json>)
    requires Answered(reply)
    ensures r.calls == [PlansList(data)]
    ensures r.result.Err? <==> reply.err.Truthy()
    ensures r.result.Err? ==> r.result.failure == Reason(reply.err)
    ensures r.result.Ok? ==> r.result.value == Get(reply.value, "data")
  {
    var outcome := match Settle(reply)
      case Err(f) => Err(f)
      case Ok(plans) => Ok(Get(plans, "data"));
    Run(outcome, [PlansList(data)])
  }

  /** Fetching plans is the plain list call followed by taking `data` out of
      the envelope; a reply carrying a list gives exactly that list. */
  lemma FetchPlansUnwraps(data: Json, reply: Callback, fields: map<string, Json>, list: Json)
    requires Answered(reply)
    ensures FetchPlans(data, reply) == AndThen(Forward(PlansList(data), reply), (plans) => Run(Ok(Get(plans, "data")), []))
    ensures !reply.err.Truthy() && reply.value == Obj(fields["data" := list]) ==> FetchPlans(data, reply).result == Ok(list)
  {
    assert [PlansList(data)] + [] == [PlansList(data)];
  }

  // ---------------------------------------------------------------------------
  // Plain pass-through wrappers

  /** `createCharge`: the request goes to the vendor as it is. */
  function CreateCharge(data: Json, reply: Callback): (r: Run<Json>)
    ensures Forwards(r, ChargesCreate(data), reply)
  {
    Forward(ChargesCreate(data), reply)
  }

  /** `createCustomer`: the request goes to the vendor as it is. */
  function CreateCustomer(data: Json, reply: Callback): (r: Run<Json>)
    ensures Forwards(r, CustomersCreate(data), reply)
  {
    Forward(CustomersCreate(data), reply)
  }

  /** `createPlan`: the request goes to the vendor as it is. */
  function CreatePlan(data: Json, reply: Callback): (r: Run<Json>)
    ensures Forwards(r, PlansCreate(data), reply)
  {
    Forward(PlansCreate(data), reply)
  }

  /** `deleteCard`. */
  function DeleteCard(data: Json, reply: Callback): (r: Run<Json>)
    ensures data.Nullish() ==> r == Run(Err(TypeError), [])
    ensures !data.Nullish() ==> Forwards(r, CustomersDeleteCard(Get(data, "customerId"), Get(data, "cardId")), reply)
  {
    if data.Nullish() then Unreadable()
    else Forward(CustomersDeleteCard(Get(data, "customerId"), Get(data, "cardId")), reply)
  }

  /** `deleteCustomer`. */
  function DeleteCustomer(data: Json, reply: Callback): (r: Run<Json>)
    ensures data.Nullish() ==> r == Run(Err(TypeError), [])
    ensures !data.Nullish() ==> Forwards(r, CustomersDel(Get(data, "customerId")), reply)
  {
    if data.Nullish() then Unreadable()
    else Forward(CustomersDel(Get(data, "customerId")), reply)
  }

  /** `getCard`. */
  function GetCard(data: Json, reply: Callback): (r: Run<Json>)
    ensures data.Nullish() ==> r == Run(Err(TypeError), [])
    ensures !data.Nullish() ==> Forwards(r, CustomersRetrieveCard(Get(data, "customerId"), Get(data, "cardId")), reply)
  {
    if data.Nullish() then Unreadable()
    else Forward(CustomersRetrieveCard(Get(data, "customerId"), Get(data, "cardId")), reply)
  }

  /** `getCards`. */
  function GetCards(data: Json, reply: Callback): (r: Run<Json>)
    ensures data.Nullish() ==> r == Run(Err(TypeError), [])
    ensures !data.Nullish() ==> Forwards(r, CustomersListCards(Get(data, "customerId")), reply)
  {
    if data.Nullish() then Unreadable()
    else Forward(CustomersListCards(Get(data, "customerId")), reply)
  }

  /** `getCustomer`. */
  function GetCustomer(data: Json, reply: Callback): (r: Run<Json>)
    ensures data.Nullish() ==> r == Run(Err(TypeError), [])
    ensures !data.Nullish() ==> Forwards(r, CustomersRetrieve(Get(data, "customerId")), reply)
  {
    if data.Nullish() then Unreadable()
    else Forward(CustomersRetrieve(Get(data, "customerId")), reply)
  }

  /** `getPlan`. */
  function GetPlan(data: Json, reply: Callback): (r: Run<Json>)
    ensures data.Nullish() ==> r == Run(Err(TypeError), [])
    ensures !data.Nullish() ==> Forwards(r, PlansRetrieve(Get(data, "planId")), reply)
  {
    if data.Nullish() then Unreadable()
    else Forward(PlansRetrieve(Get(data, "planId")), reply)
  }

  /** The operation did not fail with a message of its own. */
  predicate NoOwnMessage(r: Run<Json>) {
    r.result.Err? ==> r.result.failure.Reason? || r.result.failure.TypeError?
  }

  /** No Stripe operation ever fails with a message of its own: every failure
      is the vendor's error or a TypeError from a null request or token. */
  lemma FailuresAreNeverMessages(data: Json, tokenReply: Callback, reply: Callback)
    ensures NoOwnMessage(CreateCard(data, tokenReply, reply))
    ensures NoOwnMessage(UpdatePlan(data, reply)) && NoOwnMessage(UpdateCustomer(data, reply))
    ensures NoOwnMessage(SetDefaultCard(data, reply)) && NoOwnMessage(CreateSubscription(data, reply))
    ensures Answered(reply) ==> NoOwnMessage(FetchPlans(data, reply))
    ensures NoOwnMessage(CreateCharge(data, reply)) && NoOwnMessage(CreateCustomer(data, reply))
    ensures NoOwnMessage(CreatePlan(data, reply)) && NoOwnMessage(DeleteCard(data, reply))
    ensures NoOwnMessage(DeleteCustomer(data, reply)) && NoOwnMessage(GetCard(data, reply))
    ensures NoOwnMessage(GetCards(data, reply)) && NoOwnMessage(GetCustomer(data, reply))
    ensures NoOwnMessage(GetPlan(data, reply))
  {
  }
}

=== FILE: vendor.dfy ===
/** The vendor clients, as uninterpreted steps. An adapter operation records
    each client call it issues, in order, next to the outcome it settles with. */
module Vendor {
  import opened Js
  import opened Promises
  import opened AuthNetTypes

  datatype Call =
    // Authorize.Net CIM client (`auth-net-cim`)
    | CreateCustomerPaymentProfile(customerProfileId: Json, paymentProfile: PaymentProfile)
    | GetCustomerPaymentProfile(customerProfileId: Json, customerPaymentProfileId: Json)
    | DeleteCustomerPaymentProfile(customerProfileId: Json, customerPaymentProfileId: Json)
    | CreateCustomerProfile(customerProfile: CustomerBasic)
    | GetCustomerProfile(customerProfileId: Json)
    // Authorize.Net AIM client (`authorize-net`); the three arguments are
    // `{amount}`, `{profileId}` and `{customerPaymentProfileId}`
    | ChargeCustomer(amount: string, profileId: Json, customerPaymentProfileId: Json)
    // Stripe client
    | TokensCreate(body: Json)
    | CustomersCreateSource(customer: Json, body: Json)
    | ChargesCreate(body: Json)
    | CustomersCreate(body: Json)
    | CustomersUpdate(customer: Json, body: Json)
    | CustomersDeleteCard(customer: Json, card: Json)
    | CustomersDel(customer: Json)
    | CustomersRetrieveCard(customer: Json, card: Json)
    | CustomersListCards(customer: Json)
    | CustomersRetrieve(customer: Json)
    | PlansCreate(body: Json)
    | PlansList(body: Json)
    | PlansRetrieve(plan: Json)
    | PlansUpdate(plan: Json, body: Json)

  /** What one adapter operation did: how its promise settled and the client
      calls it issued. */
  datatype Run<+T> = Run(result: Result<T>, calls: seq<Call>)

  /** What an operation did whose promise may never settle. */
  datatype Trace<+T> = Trace(settlement: Settlement<T>, calls: seq<Call>)

  /** A promise chain: `first`, then, once it resolved, `step` on its value.
      A rejection skips the step. */
  function AndThen(first: Run<Json>, step: Json -> Run<Json>): (r: Run<Json>)
    ensures first.result.Err? ==> r == first
    ensures first.result.Ok? ==>
      r == Run(step(first.result.value).result, first.calls + step(first.result.value).calls)
  {
    match first.result
    case Err(_) => first
    case Ok(v) =>
      var next := step(v);
      Run(next.result, first.calls + next.calls)
  }

  /** A wrapper around exactly one client call whose callback decides the outcome. */
  predicate Forwards(r: Run<Json>, call: Call, reply: Callback) {
    && r.calls == [call]
    && (r.result.Err? <==> reply.err.Truthy())
    && (r.result.Err? ==> r.result.failure == Reason(reply.err))
    && (r.result.Ok? ==> r.result.value == reply.value)
  }

  /** One client call, settled by its callback. */
  function Forward(call: Call, reply: Callback): (r: Run<Json>)
    ensures Forwards(r, call, reply)
  {
    Run(Settle(reply), [call])
  }
}
